=== FILE: README.md ===
# 123pan offline-download helper: verified model of its core

This project models the decision logic of `app.py`, a small Flask front end
to the 123pan open-platform API. It covers four parts:

- **Token acquisition** (`get_access_token`). A bearer token is looked up in
  three tiers: the in-memory `_token_cache`, then the `accessToken`/`expiredAt`
  pair stored in `config.json`, then a single call to
  `POST /api/v1/access_token` with the stored `clientID`/`clientSecret`.
  A token is used only while `now < expiry - 300`. The `api_request` wrapper
  and the `credentials_required` guard are built on this lookup.
- **Task registry**. `task_ids` is an ordered, duplicate-free list of
  offline-download job IDs. `add_tasks` appends the IDs that successful
  submissions return. `get_tasks_status` polls every tracked ID into a status
  map; a failed poll is reported as `status -1`. `clear_completed_tasks`
  keeps only the IDs whose poll failed or whose status is neither 1 nor 2.
- **Link parsing**. The submitted text becomes links by `splitlines`,
  `strip`, and dropping empty lines.
- **Folder listing** (`get_folders`). It walks cursor pages of
  `GET /api/v2/file/list` and keeps non-trashed directories. It stops at
  cursor `-1` and fails as a whole if any page fails.

The network, the configuration file, the clock and the ISO-8601 parser are
not part of this model. They are replaced as follows:

- Every reply from the remote is an input value, one per call, in call order.
- `config.json` is a record held in the state.
- The current time is an `int`.
- Parsing is a parameter `parse: string -> Option<int>`, where `None` stands
  for the `ValueError`/`TypeError` that `datetime.fromisoformat` raises.
- An exception that escapes the modelled code is the result `Raise(...)`.

Files:

- `Common.dfy`: `Option`, `Outcome` (return or raise) and Python truthiness.
- `Tokens.dfy`: the configuration and cache records, and the lookup as the
  function `Acquire` with its properties.
- `App.dfy`: class `State`, whose fields are the two `_token_cache` entries
  and the configuration. Its methods are the request handlers, each proved
  equal to the specification functions.
- `Links.dfy`: `splitlines`, `strip` and the link comprehension.
- `Tasks.dfy`: the submission, status and pruning loops.
- `Folders.dfy`: the paging loop.

Some behaviour of the code differs from what a reader might expect, and
the model follows the code:

- A failed refresh might be expected to clear the stored token too. The
  code clears only the in-memory cache (app.py:103-106) and keeps the token
  fields in `config.json` (`Tokens.RefreshFailure`).
- A refresh whose transport raises might be expected to be reported as a
  failure. The code clears nothing and the exception propagates out of
  `get_access_token` (`Tokens.RefreshConnectionError`).
- A stored record with a valid expiry but no `accessToken` key might be
  expected to count as unusable. The code's `config['accessToken']` raises a
  `KeyError` that nothing catches (app.py:69-72).
- Tokens might be expected to be kept per client or guarded by a lock.
  There is one global cache and one configuration file, with no locking.

## Model

| member | source | states |
|---|---|---|
| Tokens.Acquire | app.py:47-106 | only `accessToken`/`expiredAt` of the configuration can change, and only when the refresh endpoint was called; a usable token is returned only from a usable cache or when both credentials are present |
| Tokens.CacheUsable | app.py:53 | the cache is used exactly when its token is truthy and `now < expired_at_ts - 300` |
| Common.Truthy | app.py:120 | Python truthiness of a string that may be missing: `None` and `""` are false, every other string is true; the same test is made at app.py:53, 59, 63 and 112 |
| Tokens.Unexpired | app.py:53 | a token may be used at `now` exactly while `now < expiry - 300`; the same test guards the cache (app.py:53) and the stored record (app.py:67) |
| Tokens.HasCredentials | app.py:58-59 | a refresh is possible only when both `clientID` and `clientSecret` are present and non-empty |
| Tokens.StoredExpiry | app.py:62-66 | an expiry is obtained only from a present, non-empty `expiredAt` that the ISO-8601 parser accepts, and it is the parsed value |
| Tokens.StoredUsable | app.py:62-67 | the stored token is used exactly when the stored expiry parses and `now < exp - 300` |
| Tokens.RefreshOk | app.py:83 | a refresh succeeds exactly on HTTP status 200 with body `code == 0` |
| Tokens.CacheHit | app.py:52-54 | a truthy cached token with `now < expired_at_ts - 300` is returned; cache and configuration are unchanged and no refresh happens |
| Tokens.MissingCredentials | app.py:56-60 | with the cache unusable and `clientID` or `clientSecret` missing or empty, the result is `None`, nothing changes and no refresh happens |
| Tokens.StoredHit | app.py:62-71 | a stored expiry that parses with `now < exp - 300` makes the cache exactly (stored token, that expiry) and returns the stored token, without refreshing |
| Tokens.RefreshWhenNeeded | app.py:52-83 | the refresh endpoint is called if and only if the cache is unusable, both credentials are present and the stored token is unusable |
| Tokens.RefreshSuccess | app.py:83-101 | on HTTP 200 and `code == 0` the configuration gets the new token and expiry string with every other field unchanged, the cache gets the token and parsed expiry (or keeps its token with expiry 0 when the expiry does not parse), and the new token is returned |
| Tokens.RefreshFailure | app.py:103-106 | any other status or code returns `None`, resets the cache to `(None, 0)` and leaves the configuration untouched |
| Tokens.RefreshConnectionError | app.py:76-81 | a transport failure of the refresh call raises out of the lookup with cache and configuration unchanged |
| Tokens.RefreshLeavesLayersConsistent | app.py:87-96 | after a successful refresh whose expiry parses, cache and configuration hold the same token and the stored expiry parses to the cached timestamp |
| Tokens.ReuseAfterRefresh | app.py:52-101 | a token obtained by refresh is returned from the cache by any later lookup before its expiry minus 300 s, with no refresh and no state change |
| Tokens.FailedRefreshIdempotent | app.py:103-106 | a second failed refresh leaves exactly the state the first one left |
| App.State.constructor | app.py:20-25 | a new process starts with the cache `(None, 0)` and the configuration file as found |
| App.State.GetAccessToken | app.py:47-106 | the returned value or exception, the new cache fields, the new configuration and whether the endpoint was called are exactly `Acquire` of the old cache and configuration |
| App.State.ApiRequest | app.py:118-129 | without a truthy token no request is issued (no bearer) and the result is `None`; otherwise the request carries that token and its response is returned; the lookup runs before the `try`, so its exception propagates |
| App.State.Authorized | app.py:109-116 | the guarded handler runs exactly when the lookup yields a truthy token |
| App.State.AddTasks | app.py:161-184 | with no link left after cleaning nothing is saved; otherwise the requests of `Tasks.Sent`, with the form's `dirID` when it is all digits, one per link when every lookup gives a token; when a submission's token lookup raises, no later request is sent, nothing is saved and the exception is the answer; otherwise the saved list is the old one with the new accepted IDs appended and the answer is `added_count / len(links)`; duplicate-freedom is kept. The ensures that the cache fields are unchanged holds only because the model does not track the cache writes of the lookups inside the loop (see Left out) |
| App.State.TasksStatus | app.py:227-239 | when no poll's token lookup raises, the status map has exactly the tracked IDs as keys and, for a duplicate-free list, each maps to its poll's data or to the failure record; otherwise the first such exception is the answer |
| App.State.ClearCompletedTasks | app.py:241-259 | an empty list answers "no tasks" and saves nothing; a poll whose token lookup raises ends the handler with that exception and nothing saved; otherwise the saved list is the retained subsequence and the answer is the number removed, at least 0; a duplicate-free list stays duplicate-free. The ensures that the cache fields are unchanged holds only because the model does not track the cache writes of the lookups inside the loop (see Left out) |
| App.State.Reset | app.py:261-266 | the configuration is gone and the cache is `(None, 0)` |
| App.RefreshThenReuse | app.py:47-106 | from a fresh process with stale stored token, the first lookup refreshes and returns the new token, and a second lookup before its expiry returns the same token without calling the endpoint |
| App.RejectedRefresh | app.py:83-106 | a refresh answered with `code` 1 returns no token, empties the cache and keeps credentials and stored token fields |
| Links.LineEnd | app.py:166 | the returned index is the first line break of the text, or its length when there is none |
| Links.IsSpace | app.py:166 | exactly the characters for which `str.isspace` holds, which `strip()` removes: `\t` to `\r`, `\x1c` to `\x1f`, space, `\x85`, `\xa0`, U+1680, U+2000 to U+200A, U+2028, U+2029, U+202F, U+205F and U+3000 |
| Links.IsLineBreak | app.py:166 | exactly the characters at which `splitlines` ends a line: `\n` to `\r`, `\x1c` to `\x1e`, `\x85`, U+2028 and U+2029 (not `\x1f`, which is only whitespace) |
| Links.SplitLines | app.py:166 | no produced line contains a line break; `\r\n` is one boundary and a final break opens no empty line |
| Links.BreakWidth | app.py:166 | a `\r` directly followed by `\n` is one two-character boundary for `splitlines`; every other break is one character |
| Links.LineEnds | app.py:166 | the boundary `splitlines` drops after each line, and nothing after a last line that the text does not terminate; `SplitLinesExact` proves the lines and these boundaries rebuild the text |
| Links.SplitLinesExact | app.py:166 | every text is exactly its lines, each followed by the boundary that ended it (`\r\n`, a single break character, or nothing after an unterminated last line) |
| Links.SplitJoinEnds | app.py:166 | any break-free lines, empty ones included, joined by any boundaries of that shape split back into exactly those lines and boundaries, so the cut `splitlines` makes is the only one |
| Links.StripLeft | app.py:166 | the result is a suffix of the input, everything cut off is whitespace, and it does not start with whitespace |
| Links.StripRight | app.py:166 | the result is a prefix of the input, everything cut off is whitespace, and it does not end with whitespace |
| Links.Strip | app.py:166 | the result has no whitespace at either end, an already stripped string is unchanged, and no line break is introduced |
| Links.Clean | app.py:166 | at most one link per line; every link is non-empty and stripped, and has no line break when the lines had none |
| Links.CleanMembers | app.py:166 | the strip of every line that is not all whitespace is a link, and every link is the strip of some line |
| Links.StripEmpty | app.py:166 | a line's strip is empty exactly when the line is all whitespace, which is when the comprehension drops it |
| Links.LinkIndicesExact | app.py:166 | the positions of the lines that give links are in range, strictly increasing, and are exactly the lines that are not all whitespace |
| Links.CleanAtLinkIndices | app.py:166 | the k-th link is the strip of the k-th line that is not all whitespace, so the links keep the order of the lines |
| Links.ParseLinks | app.py:166 | every parsed link is non-empty, stripped and free of line breaks |
| Links.SplitJoin | app.py:166 | splitting the text of non-empty, break-free lines joined by `\n` gives back exactly those lines |
| Links.CleanKeepsCleanLines | app.py:166 | cleaning lines that are already non-empty and stripped leaves them as they are |
| Links.ParseJoinRoundTrip | app.py:166 | links written one per line parse back to exactly those links, in order |
| Links.ParseLinksOfLines | app.py:166 | a text made of lines and boundaries parses to the strips of its non-blank lines, in order, whatever the boundaries and padding |
| Links.ParseLinksExact | app.py:166 | for every text, the links are exactly the strips of its non-blank `splitlines` lines, in line order |
| Links.ParseLinksIdempotent | app.py:166 | parsing the parsed links written one per line yields the same links |
| Tasks.DirParam | app.py:175 | `dirID` is sent exactly when the form field is present, non-empty and all digits |
| Tasks.Accepted | app.py:177 | a submission counts exactly when `api_request` returned a body whose `code` is 0 |
| Tasks.DirParamRoundTrip | app.py:175 | a directory number written in decimal reaches the request as that number |
| Tasks.DigitsValue | app.py:175 | `int(dir_id)` of an all-digit string, read left to right in base 10 (its round trip with the decimal spelling is `Tasks.DirParamRoundTrip`) |
| Tasks.Track | app.py:177-179 | one reply appends at most one ID, keeps the list as a prefix, adds an accepted reply's ID when it is new, adds nothing else, and keeps duplicate-freedom |
| Tasks.Register | app.py:173-179 | the tracked list after the loop has seen the replies in order, one `Track` step per reply (its properties are the `Register…` lemmas) |
| Tasks.AcceptedCount | app.py:172-180 | `added_count` is at most the number of submissions |
| Tasks.RegisterExtends | app.py:171-179 | the old task list is a prefix of the new one |
| Tasks.RegisterNoDup | app.py:179 | a duplicate-free task list stays duplicate-free |
| Tasks.RegisterMembers | app.py:176-179 | an ID is tracked afterwards if and only if it was tracked before or a submission returned it with `code == 0` |
| Tasks.FirstReturn | app.py:176-179 | the position of the first submission accepted with a given ID, or the number of submissions when there is none |
| Tasks.RegisterOrder | app.py:176-179 | the appended IDs are new, each was returned by an accepted submission, and they appear in the order of the submissions that first returned them |
| Tasks.RegisterGrowth | app.py:172-180 | the list grows by at most `added_count` |
| Tasks.RegisterKnown | app.py:179 | replies whose IDs are all tracked leave the list unchanged |
| Tasks.RegisterIdempotent | app.py:176-179 | registering the same replies twice gives the same list as once |
| Tasks.ThreeSubmissions | app.py:171-183 | three submissions of which one fails and two return distinct IDs track exactly those two IDs, in order, and report two added |
| Tasks.SubmitsBeforeRaise | app.py:173-176 | the number of submissions made before the first whose token lookup raised (all of them when none did); no earlier one raised |
| Tasks.Sent | app.py:172-176 | the requests that go out: one per link in order, with the form's `dirID`, skipping the links whose token lookup gave no token (app.py:119-120); never more than one per link |
| Tasks.SentAll | app.py:172-176 | when every lookup gave a token, the k-th request carries the k-th link |
| Tasks.SentMembers | app.py:172-176 | every link whose lookup gave a token is sent with the form's `dirID` |
| Tasks.SubmitAll | app.py:171-181 | the loop sends the requests of `Sent` for the links up to the first submission whose token lookup raises, which ends it with that exception before its request is sent; a link whose lookup gives no token sends nothing and counts as not added; with every lookup giving a token, the k-th request carries the k-th link; the registered list and the accepted count are those of the replies before it; the old list stays a prefix, duplicate-freedom is kept, and `len(appended) <= added_count <= len(links)` |
| Tasks.Reported | app.py:235-238 | a failed poll (no result or `code != 0`) is reported with status -1 and process 0 |
| Tasks.PollOk | app.py:235 | a poll succeeded exactly when `api_request` returned a body whose `code` is 0; the same test decides at app.py:250 |
| Tasks.QueryFailed | app.py:238 | the record for a failed poll: status -1, process 0, status text "查询失败" |
| Tasks.PollsBeforeRaise | app.py:233-234 | the number of polls made before the first whose token lookup raised (all of them when none did); no earlier one raised |
| Tasks.PollRaise | app.py:233-249 | a polling loop ends with an exception exactly when some poll's token lookup raised |
| Tasks.StatusMap | app.py:230-239 | the loop stops with the exception of the first poll whose token lookup raises; the keys are exactly the IDs polled before it, and each ID's value is its last poll's report, so every ID's own poll when there are no duplicates |
| Tasks.Terminal | app.py:250-252 | a task is dropped exactly when its poll succeeded with status 1 or 2 |
| Tasks.Retained | app.py:247-254 | the retained list is no longer than the tracked list and holds only tracked IDs (its order and exact contents are `Tasks.RetainedIsSubsequence`) |
| Tasks.KeptIndicesExact | app.py:248-254 | the retained positions are in range, strictly increasing, and a position is retained if and only if its poll failed or its status is not 1 or 2 |
| Tasks.RetainedAtKept | app.py:247-254 | `active_tasks` is `task_ids` read at the retained positions, in order |
| Tasks.RetainedIsSubsequence | app.py:247-254 | `active_tasks` is the order-preserving subsequence of `task_ids` at exactly the positions whose poll failed or is not terminal |
| Tasks.RetainedMembers | app.py:247-254 | for a duplicate-free list, an ID survives if and only if its poll failed or is not terminal, and the result stays duplicate-free |
| Tasks.PruneFinishedKeepUnknown | app.py:247-254 | of two tasks, one reported finished (status 1) and one whose poll failed, only the finished one is removed |
| Tasks.Prune | app.py:247-255 | the loop stops with the exception of the first poll whose token lookup raises; otherwise it returns the retained subsequence; `cleared_count == len(task_ids) - len(active_tasks) >= 0` and a duplicate-free list stays duplicate-free |
| Folders.Kept | app.py:200-202 | a page contributes at most one folder per entry, each from a non-trashed directory entry |
| Folders.KeptComplete | app.py:200-202 | every non-trashed directory entry of a page is reported |
| Folders.KeptAllDirectories | app.py:200-202 | a page of non-trashed directories only is reported entry for entry: one folder per entry, the k-th folder made from the k-th entry |
| Folders.IsLiveDirectory | app.py:201 | an entry is kept exactly when its `type` is 1 and its `trashed` is 0 or missing |
| Folders.PageOk | app.py:196 | a page succeeded exactly when `api_request` returned a body whose `code` is 0 |
| Folders.ToFolder | app.py:202 | a kept entry is reported as its `fileId` and `filename` |
| Folders.PageItems | app.py:198-199 | the entries of a page are `data.fileList`, or none when `data` or `fileList` is missing |
| Folders.NextCursor | app.py:203 | the next cursor is `data.lastFileId`, or -1 when `data` or `lastFileId` is missing |
| Folders.CursorParam | app.py:194 | `lastFileId` is sent exactly when the cursor is not 0 |
| Folders.RequestFor | app.py:193-194 | the query of the k-th request: `parentFileId`, `limit` 100, and the cursor of page k-1 (none for the first request or for cursor 0) |
| Folders.Sends | app.py:119-120 | a page's request goes out exactly when its token lookup neither raised nor gave no token |
| Folders.Walk | app.py:192-205 | the answer for a sequence of page replies, page by page: a raising lookup or a failed page ends it, cursor -1 finishes it, and each page's folders come before later pages' |
| Folders.Requested | app.py:192-204 | no more pages are requested than the remote returns; the count is 0 exactly when the first page's token lookup raised or gave no token, so that page is not requested |
| Folders.WalkStep | app.py:195-204 | a raising lookup ends with its exception and no request, a lookup with no token ends with an error and no request, a sent page that failed ends with an error and one request, a page with cursor -1 ends with its folders, and any other page adds its folders in front of the rest of the walk |
| Folders.WalkEndsAt | app.py:192-205 | if page k is the first with cursor -1 and pages 0..k succeeded, the answer is the folders of pages 0..k in order, after k+1 requests |
| Folders.WalkFailsAt | app.py:195-197 | if page k is the first failed page, the answer is an error with no partial list; k+1 requests went out when page k's request was sent and failed, and k when its lookup gave no token and nothing was sent (app.py:120) |
| Folders.WalkRaisesAt | app.py:195 | if the token lookup for page k raises, the answer is that exception with no partial list, after k requests |
| Folders.WalkCases | app.py:192-205 | every answer is one of: an end mark reached, a failed page reached, a raising lookup reached, or replies that never mark the end |
| Folders.WalkOnlyLiveDirectories | app.py:200-202 | every folder in the answer comes from a non-trashed directory entry of a returned page |
| Folders.TwoPages | app.py:192-205 | pages of 100 and 1 directories give one list of 101 folders after two requests |
| Folders.AppendDirectories | app.py:200-202 | the inner loop appends exactly the page's non-trashed directories to the folders found so far |
| Folders.GetFolders | app.py:186-205 | the loop returns `Walk` of the replies and sends exactly `Requested` requests, none for a page whose lookup raised or gave no token; the first without `lastFileId` and each later one with the previous page's cursor (omitted when 0) and `limit` 100 |

## Left out

- Flask routing, templates, `flash`, `redirect`, `jsonify` and HTTP status codes (app.py:132-159, 207-225). The `configure` handler (which saves credentials, clears the cache and restores the old file on failure) and `create_folder` are not part of this model.
- `load_config` and `save_config` file I/O (app.py:28-44). The file is a record in the state, and a missing or corrupt file is the input `EmptyConfig`. A failed write is not modelled, and neither is a JSON `null` as distinct from a missing key.
- The requests themselves (`requests`, `raise_for_status`, headers, URLs). Each reply is an input.
- Inside the submission, status, pruning and folder-paging loops (app.py:176, 234, 249, 195), every `api_request` first runs the token lookup outside its `try` (app.py:119). A lookup that raises is modelled: the reply value `SubmitRaised`, `PollRaised` or `PageRaised` ends the loop with that exception, no request is sent for it, and the handler saves nothing. A lookup that gives no token is modelled too: `SubmitNoToken` and `PageNoToken` send nothing (app.py:120); a poll with no token is a failed poll, as `PollFailed`. A lookup that succeeds is summarised by the reply value: what it does to the cache, and to the token fields of `config.json` when it refreshes, is not modelled. Neither is the later overwrite of such a refreshed token by the handler's own `save_config` (app.py:182, 257) with the record it loaded before the loop.
- `time.time()` and timestamps are integer seconds, and one `now` serves both clock reads of one lookup. Fractional seconds are not modelled.
- `datetime.fromisoformat` is the parameter `parse`. The expiry string inside a refresh reply and the configuration's fields are strings; other JSON types are not modelled.
- A missing `links` form field makes `links_text.splitlines()` raise (app.py:164-166). The model takes the submitted text as a string.
- Tasks.DirParam: `str.isdigit` is modelled for ASCII digits only. Other Unicode digits, which `isdigit` accepts and `int` may reject, are not modelled.
- App.State.AddTasks: its `Cached() == old(Cached())` holds in the model only. Each submission's lookup (app.py:119) may rewrite `_token_cache` (app.py:69-70, 95-98, 105), for example when the cache expires during the loop; those writes are not modelled.
- App.State.ClearCompletedTasks: its `Cached() == old(Cached())` holds in the model only, for the same reason: each poll's lookup may rewrite `_token_cache`.
- Folders.GetFolders: the source loops for as long as the remote keeps returning pages. The model is given a finite sequence of replies and answers `Unfinished` when they run out before the cursor -1.
- A malformed body (a missing `data`, `taskID`, `type`, `fileId` or `filename` key, or a non-JSON body with status 200) raises in the source. The model's reply values always carry these fields.
- The `parent_id` default of `0` when the query has none (app.py:189): `Folders.GetFolders` takes the parent as given. The `print` logging (app.py:44, 76, 100, 103, 128) has no effect on any modelled decision and is left out.
- Concurrency: the source has one unsynchronised global cache and no locks, and the model is sequential.

=== FILE: App.dfy ===
/** The mutable state of the `app.py` process: the module-level
    `_token_cache` dictionary and the record kept in `config.json`, and the
    operations that read and update them. Clock, ISO-8601 parser and every
    network reply are parameters. */
module App {
  import opened Common
  import opened Tokens
  import Links
  import Tasks
  import Folders

  /** The answer of `add_tasks`. */
  datatype AddOutcome =
    | NoLinks                               // nothing but blank lines was submitted
    | Added(addedCount: nat, total: nat)    // "added_count / len(links)"

  /** The answer of `clear_completed_tasks`. */
  datatype ClearOutcome = NothingToClear | Cleared(clearedCount: int)

  class State {
    /** `_token_cache['accessToken']` */
    var accessToken: Option<string>
    /** `_token_cache['expired_at_ts']` */
    var expiredAtTs: int
    /** The record in `config.json`, as `load_config` reads it. */
    var config: Config

    function Cached(): Cache
      reads this
    {
      Cache(accessToken, expiredAtTs)
    }

    /** Process start: an empty cache, and the configuration file as found
        (`EmptyConfig` when it is missing or unreadable). */
    constructor (stored: Config)
      ensures Cached() == EmptyCache && config == stored
    {
      accessToken := None;
      expiredAtTs := 0;
      config := stored;
    }

    /** `get_access_token`: cache, then configuration, then one refresh. */
    method GetAccessToken(now: int, parse: string -> Option<int>, reply: RefreshReply)
      returns (token: Outcome<Option<string>>, refreshed: bool)
      modifies this
      ensures Acquisition(token, Cached(), config, refreshed) == Acquire(old(Cached()), old(config), now, parse, reply)
    {
      if Truthy(accessToken) && now < expiredAtTs - SafetyMargin {
        return Return(accessToken), false;
      }
      var cfg := config;
      var clientId, clientSecret := cfg.clientID, cfg.clientSecret;
      if !Truthy(clientId) || !Truthy(clientSecret) {
        return Return(None), false;
      }
      var expiredAtStr := cfg.expiredAt;
      if Truthy(expiredAtStr) {
        var expiredTimestamp := parse(expiredAtStr.value);
        if expiredTimestamp.Some? && now < expiredTimestamp.value - SafetyMargin {
          if cfg.accessToken.None? {
            return Raise(KeyError("accessToken")), false;
          }
          accessToken := cfg.accessToken;
          expiredAtTs := expiredTimestamp.value;
          return Return(cfg.accessToken), false;
        }
      }
      refreshed := true;
      if reply.ConnectionFailed? {
        return Raise(ConnectionError), true;
      }
      if reply.statusCode == 200 && reply.code == Some(0) {
        var newToken, newExpiredAtStr := reply.accessToken, reply.expiredAt;
        cfg := cfg.(accessToken := Some(newToken), expiredAt := Some(newExpiredAtStr));
        config := cfg;
        var newExpired := parse(newExpiredAtStr);
        if newExpired.Some? {
          accessToken := Some(newToken);
          expiredAtTs := newExpired.value;
        } else {
          expiredAtTs := 0;
        }
        return Return(Some(newToken)), true;
      }
      accessToken, expiredAtTs := None, 0;
      return Return(None), true;
    }

    /** `api_request`: without a usable token no request is issued and the
        answer is `None`; otherwise the request goes out with that bearer
        token and its answer (`None` for a transport error or an HTTP error
        status) is returned. */
    method ApiRequest<T>(now: int, parse: string -> Option<int>, refresh: RefreshReply, response: Option<T>)
      returns (r: Outcome<Option<T>>, bearer: Option<string>)
      modifies this
      ensures var a := Acquire(old(Cached()), old(config), now, parse, refresh);
        Cached() == a.cache && config == a.config &&
        (a.result.Raise? ==> r == Raise(a.result.error) && bearer == None) &&
        (a.result.Return? && !Truthy(a.result.value) ==> r == Return(None) && bearer == None) &&
        (a.result.Return? && Truthy(a.result.value) ==> r == Return(response) && bearer == a.result.value)
    {
      var token, _ := GetAccessToken(now, parse, refresh);
      if token.Raise? {
        return Raise(token.error), None;
      }
      if !Truthy(token.value) {
        return Return(None), None;
      }
      return Return(response), token.value;
    }

    /** The `credentials_required` guard: the handler runs only when a
        usable token can be obtained. */
    method Authorized(now: int, parse: string -> Option<int>, refresh: RefreshReply) returns (r: Outcome<bool>)
      modifies this
      ensures var a := Acquire(old(Cached()), old(config), now, parse, refresh);
        Cached() == a.cache && config == a.config &&
        (a.result.Raise? ==> r == Raise(a.result.error)) &&
        (a.result.Return? ==> r == Return(Truthy(a.result.value)))
    {
      var token, _ := GetAccessToken(now, parse, refresh);
      if token.Raise? {
        return Raise(token.error);
      }
      return Return(Truthy(token.value));
    }

    /** `add_tasks` after its guard: parse the links, submit each one, and
        save the tracked list with the newly returned IDs appended. Nothing is
        saved when no link remains after cleaning, nor when the token lookup
        of a submission raises: that exception leaves the handler before
        `save_config` and no later link is submitted. */
    method AddTasks(linksText: string, dirId: Option<string>, replies: seq<Tasks.SubmitReply>)
      returns (r: Outcome<AddOutcome>, sent: seq<Tasks.DownloadRequest>)
      requires |replies| == |Links.ParseLinks(linksText)|
      modifies this
      // The lookups inside the loop are summarised by the replies, so the
      // model does not see their writes to the cache.
      ensures Cached() == old(Cached())
      ensures var links := Links.ParseLinks(linksText); var n := Tasks.SubmitsBeforeRaise(replies);
        (links == [] ==> r == Return(NoLinks) && config == old(config) && sent == []) &&
        (links != [] ==>
          sent == Tasks.Sent(links[..n], replies[..n], Tasks.DirParam(dirId)) &&
          (n < |replies| ==> r == Raise(replies[n].error) && config == old(config)) &&
          (n == |replies| ==>
            r == Return(Added(Tasks.AcceptedCount(replies), |links|)) &&
            config == old(config).(taskIds := Tasks.Register(old(config).taskIds, replies))))
      ensures var links := Links.ParseLinks(linksText);
        (forall k :: 0 <= k < |replies| ==> !replies[k].SubmitRaised? && !replies[k].SubmitNoToken?) ==>
          |sent| == |links| && forall k :: 0 <= k < |links| ==> sent[k] == Tasks.DownloadRequest(links[k], Tasks.DirParam(dirId))
      ensures Tasks.NoDup(old(config).taskIds) ==> Tasks.NoDup(config.taskIds)
    {
      var links := Links.ParseLinks(linksText);
      if links == [] {
        return Return(NoLinks), [];
      }
      var cfg := config;
      var taskIds, addedCount, requests, raised := Tasks.SubmitAll(cfg.taskIds, links, dirId, replies);
      if raised.Some? {
        return Raise(raised.value), requests;
      }
      config := cfg.(taskIds := taskIds);
      return Return(Added(addedCount, |links|)), requests;
    }

    /** `get_tasks_status` after its guard: one poll per tracked ID; a token
        lookup that raises during the loop leaves the handler. */
    method TasksStatus(replies: seq<Tasks.PollReply>) returns (r: Outcome<map<Tasks.TaskId, Tasks.Progress>>)
      requires |replies| == |config.taskIds|
      ensures var e := Tasks.PollRaise(replies); e.Some? ==> r == Raise(e.value)
      ensures r.Return? <==> Tasks.PollRaise(replies).None?
      ensures r.Return? ==> r.value.Keys == set id | id in config.taskIds
      ensures r.Return? && Tasks.NoDup(config.taskIds) ==>
        forall i :: 0 <= i < |replies| ==> r.value[config.taskIds[i]] == Tasks.Reported(replies[i])
    {
      var m, raised := Tasks.StatusMap(config.taskIds, replies);
      if raised.Some? {
        return Raise(raised.value);
      }
      return Return(m);
    }

    /** `clear_completed_tasks` after its guard: keep the tasks whose poll
        failed or is not terminal, save them, and report how many went. An
        empty list is answered without saving, and a token lookup that
        raises during the loop leaves the handler before `save_config`. */
    method ClearCompletedTasks(replies: seq<Tasks.PollReply>) returns (r: Outcome<ClearOutcome>)
      requires |replies| == |config.taskIds|
      modifies this
      // The lookups inside the loop are summarised by the replies, so the
      // model does not see their writes to the cache.
      ensures Cached() == old(Cached())
      ensures old(config).taskIds == [] ==> r == Return(NothingToClear) && config == old(config)
      ensures var e := Tasks.PollRaise(replies);
        old(config).taskIds != [] && e.Some? ==> r == Raise(e.value) && config == old(config)
      ensures old(config).taskIds != [] && Tasks.PollRaise(replies).None? ==>
        config == old(config).(taskIds := Tasks.Retained(old(config).taskIds, replies)) &&
        r == Return(Cleared(|old(config).taskIds| - |config.taskIds|)) && r.value.clearedCount >= 0
      ensures Tasks.NoDup(old(config).taskIds) ==> Tasks.NoDup(config.taskIds)
    {
      var cfg := config;
      var taskIds := cfg.taskIds;
      if taskIds == [] {
        return Return(NothingToClear);
      }
      var activeTasks, clearedCount, raised := Tasks.Prune(taskIds, replies);
      if raised.Some? {
        return Raise(raised.value);
      }
      config := cfg.(taskIds := activeTasks);
      return Return(Cleared(clearedCount));
    }

    /** `reset_config`: the configuration file is gone and the cache is empty. */
    method Reset()
      modifies this
      ensures config == EmptyConfig && Cached() == EmptyCache
    {
      config := EmptyConfig;
      accessToken, expiredAtTs := None, 0;
    }
  }

  /** Scenario: a process whose stored token is stale refreshes once; a
      second lookup before the new expiry (minus the safety margin) returns
      the same token from the cache without calling the endpoint again. */
  method RefreshThenReuse(stored: Config, now: int, later: int, parse: string -> Option<int>,
                          reply: RefreshReply, laterReply: RefreshReply)
    returns (first: Outcome<Option<string>>, second: Outcome<Option<string>>, refreshedFirst: bool, refreshedSecond: bool)
    requires HasCredentials(stored) && !StoredUsable(stored, parse, now)
    requires RefreshOk(reply) && reply.accessToken != "" && parse(reply.expiredAt).Some?
    requires Unexpired(parse(reply.expiredAt).value, later)
    ensures first == Return(Some(reply.accessToken)) && refreshedFirst
    ensures second == first && !refreshedSecond
  {
    var s := new State(stored);
    first, refreshedFirst := s.GetAccessToken(now, parse, reply);
    second, refreshedSecond := s.GetAccessToken(later, parse, laterReply);
  }

  /** Scenario: a refresh answered with `code` 1 yields no token, empties
      the cache and keeps the stored credentials and token fields. */
  method RejectedRefresh(stored: Config, now: int, parse: string -> Option<int>, reply: RefreshReply)
    returns (token: Outcome<Option<string>>, cache: Cache, config: Config)
    requires HasCredentials(stored) && !StoredUsable(stored, parse, now)
    requires reply.RefreshResponse? && reply.statusCode == 200 && reply.code == Some(1)
    ensures token == Return(None) && cache == EmptyCache && config == stored
  {
    var s := new State(stored);
    var refreshed;
    token, refreshed := s.GetAccessToken(now, parse, reply);
    cache, config := s.Cached(), s.config;
  }
}

=== FILE: Common.dfy ===
/** Values shared by every part of the model: optional values, the way a
    Python call ends (a return or an uncaught exception) and Python
    truthiness of an optional string. */
module Common {

  /** A value that may be absent: a missing dictionary key or `None`. */
  datatype Option<+T> = None | Some(value: T)

  /** The exceptions the modelled code lets escape to its caller. */
  datatype Error =
    | KeyError(key: string)  // a dictionary lookup with `[...]` on a missing key
    | ConnectionError        // the transport under `requests.post` failed

  /** How a Python call ends: it returns a value or raises an exception that
      nobody in the modelled code catches. */
  datatype Outcome<+T> = Return(value: T) | Raise(error: Error)

  /** Python truthiness of a string that may be missing: `None` and `""`
      are false, every other string is true. */
  predicate Truthy(s: Option<string>)
  {
    s.Some? && s.value != ""
  }
}

=== FILE: Folders.dfy ===
/** `get_folders`: walk the pages of `GET /api/v2/file/list` by cursor and
    keep the directory entries that are not in the trash. The replies of
    the remote, one per page requested, are the input. */
module Folders {
  import opened Common

  /** `limit` sent with every page request. */
  const PageLimit: int := 100
  /** The cursor value with which the remote marks the last page. */
  const EndCursor: int := -1
  /** The `type` of a directory entry. */
  const DirectoryType: int := 1

  /** One element of `data.fileList`; `trashed` may be missing. */
  datatype FileItem = FileItem(fileId: int, filename: string, fileType: int, trashed: Option<int>)

  /** An element of the answer, `{"id": ..., "name": ...}`. */
  datatype Folder = Folder(id: int, name: string)

  /** The `data` object of a page; either key may be missing. */
  datatype PageData = PageData(fileList: Option<seq<FileItem>>, lastFileId: Option<int>)

  /** What `api_request` did for one page: the token lookup raised before
      the request went out, the lookup gave no token and nothing was sent,
      the request was sent and failed, or a body came back with its `code`
      and (perhaps) `data`. */
  datatype PageReply =
    | PageRaised(error: Error)
    | PageNoToken
    | PageFailed
    | PageResponse(code: Option<int>, data: Option<PageData>)

  /** The query of one page request; `lastFileId` is left out for cursor 0. */
  datatype PageRequest = PageRequest(parentFileId: string, limit: int, lastFileId: Option<int>)

  /** How the walk ends: the folders found, an error for a failed page, the
      exception of a token lookup that raised, or the given replies ran out
      before the remote marked the last page. */
  datatype Listing = Found(folders: seq<Folder>) | FetchFailed | Aborted(error: Error) | Unfinished

  predicate PageOk(p: PageReply)
  {
    p.PageResponse? && p.code == Some(0)
  }

  /** `data.get('fileList', [])`, with `data = list_data.get('data', {})`. */
  function PageItems(p: PageReply): seq<FileItem>
  {
    if p.PageResponse? && p.data.Some? && p.data.value.fileList.Some? then p.data.value.fileList.value else []
  }

  /** `data.get('lastFileId', -1)`. */
  function NextCursor(p: PageReply): int
  {
    if p.PageResponse? && p.data.Some? && p.data.value.lastFileId.Some? then p.data.value.lastFileId.value else EndCursor
  }

  /** The `lastFileId` query parameter for a cursor: omitted for 0. */
  function CursorParam(cursor: int): Option<int>
  {
    if cursor != 0 then Some(cursor) else None
  }

  /** The filter of the inner loop: a directory that is not trashed. */
  predicate IsLiveDirectory(item: FileItem)
  {
    item.fileType == DirectoryType && (if item.trashed.Some? then item.trashed.value else 0) == 0
  }

  function ToFolder(item: FileItem): Folder
  {
    Folder(item.fileId, item.filename)
  }

  /** The folders one page contributes, in page order. */
  function Kept(items: seq<FileItem>): (fs: seq<Folder>)
    ensures |fs| <= |items|
    ensures forall f :: f in fs ==> exists it :: it in items && IsLiveDirectory(it) && f == ToFolder(it)
  {
    if items == [] then []
    else
      var n := |items| - 1;
      var rest := Kept(items[..n]);
      assert forall it :: it in items[..n] ==> it in items;
      rest + (if IsLiveDirectory(items[n]) then [ToFolder(items[n])] else [])
  }

  /** Every live directory entry of a page is reported. */
  lemma {:induction false} KeptComplete(items: seq<FileItem>)
    ensures forall it :: it in items && IsLiveDirectory(it) ==> ToFolder(it) in Kept(items)
  {
    if items != [] {
      var n := |items| - 1;
      KeptComplete(items[..n]);
      assert items == items[..n] + [items[n]];
    }
  }

  /** A page of live directories only is reported entry for entry, in
      page order. */
  lemma {:induction false} KeptAllDirectories(items: seq<FileItem>)
    requires forall k :: 0 <= k < |items| ==> IsLiveDirectory(items[k])
    ensures |Kept(items)| == |items|
    ensures forall k :: 0 <= k < |items| ==> Kept(items)[k] == ToFolder(items[k])
  {
    if items != [] {
      var n := |items| - 1;
      KeptAllDirectories(items[..n]);
      assert Kept(items) == Kept(items[..n]) + [ToFolder(items[n])];
      forall k | 0 <= k < n
        ensures Kept(items)[k] == ToFolder(items[k])
      {
        assert items[..n][k] == items[k];
      }
    }
  }

  /** Adds the folders of earlier pages in front of a successful answer. */
  function Prefixed(prefix: seq<Folder>, l: Listing): Listing
  {
    if l.Found? then Found(prefix + l.folders) else l
  }

  /** The answer of `get_folders` when the remote answers with `pages`. */
  function Walk(pages: seq<PageReply>): Listing
  {
    if pages == [] then Unfinished
    else if pages[0].PageRaised? then Aborted(pages[0].error)
    else if !PageOk(pages[0]) then FetchFailed
    else if NextCursor(pages[0]) == EndCursor then Found(Kept(PageItems(pages[0])))
    else Prefixed(Kept(PageItems(pages[0])), Walk(pages[1..]))
  }

  /** The request for a page went out: its token lookup neither raised nor
      came back empty. */
  predicate Sends(p: PageReply)
  {
    !p.PageRaised? && !p.PageNoToken?
  }

  /** The number of pages requested before the walk stops; a page whose
      token lookup raised or gave no token is never requested. */
  function Requested(pages: seq<PageReply>): (n: nat)
    ensures n <= |pages|
    ensures pages != [] ==> (n == 0 <==> !Sends(pages[0]))
  {
    if pages == [] || pages[0].PageRaised? || pages[0].PageNoToken? then 0
    else if !PageOk(pages[0]) || NextCursor(pages[0]) == EndCursor then 1
    else 1 + Requested(pages[1..])
  }

  /** The folders of all pages, in order. */
  function Collected(pages: seq<PageReply>): seq<Folder>
  {
    if pages == [] then [] else Kept(PageItems(pages[0])) + Collected(pages[1..])
  }

  /** Page `k` is the first to mark the end, and every page up to it succeeded. */
  predicate EndsAt(pages: seq<PageReply>, k: int)
  {
    0 <= k < |pages| &&
    (forall j :: 0 <= j <= k ==> PageOk(pages[j])) &&
    (forall j :: 0 <= j < k ==> NextCursor(pages[j]) != EndCursor) &&
    NextCursor(pages[k]) == EndCursor
  }

  /** Page `k` is the first failed page, reached before any end mark: its
      lookup gave no token, or its request went out and failed. */
  predicate FailsAt(pages: seq<PageReply>, k: int)
  {
    0 <= k < |pages| &&
    (forall j :: 0 <= j < k ==> PageOk(pages[j]) && NextCursor(pages[j]) != EndCursor) &&
    !PageOk(pages[k]) && !pages[k].PageRaised?
  }

  /** The token lookup for page `k` raised, before any failure or end mark. */
  predicate RaisesAt(pages: seq<PageReply>, k: int)
  {
    0 <= k < |pages| &&
    (forall j :: 0 <= j < k ==> PageOk(pages[j]) && NextCursor(pages[j]) != EndCursor) &&
    pages[k].PageRaised?
  }

  /** A walk that reaches the end mark at page `k` answers with exactly the
      live directories of pages 0..k, in order. */
  lemma {:induction false} WalkEndsAt(pages: seq<PageReply>, k: int)
    requires EndsAt(pages, k)
    ensures Walk(pages) == Found(Collected(pages[..k + 1]))
    ensures Requested(pages) == k + 1
  {
    if k > 0 {
      assert EndsAt(pages[1..], k - 1);
      WalkEndsAt(pages[1..], k - 1);
      assert pages[1..][..k] == pages[..k + 1][1..];
    }
  }

  /** A failed page answers with an error; earlier pages' folders are
      dropped. Its own request counts only when it went out. */
  lemma {:induction false} WalkFailsAt(pages: seq<PageReply>, k: int)
    requires FailsAt(pages, k)
    ensures Walk(pages) == FetchFailed
    ensures Requested(pages) == if Sends(pages[k]) then k + 1 else k
  {
    if k > 0 {
      assert FailsAt(pages[1..], k - 1);
      WalkFailsAt(pages[1..], k - 1);
    }
  }

  /** A lookup that raises for page `k` ends the walk with its exception;
      the folders of earlier pages are dropped and `k` requests went out. */
  lemma {:induction false} WalkRaisesAt(pages: seq<PageReply>, k: int)
    requires RaisesAt(pages, k)
    ensures Walk(pages) == Aborted(pages[k].error)
    ensures Requested(pages) == k
  {
    if k > 0 {
      assert RaisesAt(pages[1..], k - 1);
      WalkRaisesAt(pages[1..], k - 1);
    }
  }

  /** Every answer is one of the four cases: an end mark, a failed page, a
      raising lookup, or replies that never mark the end. */
  lemma {:induction false} WalkCases(pages: seq<PageReply>)
    ensures Walk(pages).Found? ==> exists k :: EndsAt(pages, k)
    ensures Walk(pages).FetchFailed? ==> exists k :: FailsAt(pages, k)
    ensures Walk(pages).Aborted? ==> exists k :: RaisesAt(pages, k)
    ensures Walk(pages).Unfinished? ==>
      forall j :: 0 <= j < |pages| ==> PageOk(pages[j]) && NextCursor(pages[j]) != EndCursor
  {
    if pages != [] && PageOk(pages[0]) && NextCursor(pages[0]) != EndCursor {
      WalkCases(pages[1..]);
      if Walk(pages).Found? {
        var k :| EndsAt(pages[1..], k);
        assert EndsAt(pages, k + 1);
      }
      if Walk(pages).FetchFailed? {
        var k :| FailsAt(pages[1..], k);
        assert FailsAt(pages, k + 1);
      }
      if Walk(pages).Aborted? {
        var k :| RaisesAt(pages[1..], k);
        assert RaisesAt(pages, k + 1);
      }
      if Walk(pages).Unfinished? {
        forall j | 0 <= j < |pages|
          ensures PageOk(pages[j]) && NextCursor(pages[j]) != EndCursor
        {
          if j > 0 { assert pages[j] == pages[1..][j - 1]; }
        }
      }
    } else if pages != [] && PageOk(pages[0]) {
      assert EndsAt(pages, 0);
    } else if pages != [] && pages[0].PageRaised? {
      assert RaisesAt(pages, 0);
    } else if pages != [] {
      assert FailsAt(pages, 0);
    }
  }

  /** The answer never holds a trashed entry or a file: every folder comes
      from a live directory entry of a page the remote returned. */
  lemma {:induction false} WalkOnlyLiveDirectories(pages: seq<PageReply>)
    ensures Walk(pages).Found? ==> forall f :: f in Walk(pages).folders ==>
      exists p, it :: p in pages && it in PageItems(p) && IsLiveDirectory(it) && f == ToFolder(it)
  {
    if pages != [] && PageOk(pages[0]) {
      var here := Kept(PageItems(pages[0]));
      if NextCursor(pages[0]) != EndCursor {
        WalkOnlyLiveDirectories(pages[1..]);
        assert forall p :: p in pages[1..] ==> p in pages;
      }
      if Walk(pages).Found? {
        forall f | f in Walk(pages).folders
          ensures exists p, it :: p in pages && it in PageItems(p) && IsLiveDirectory(it) && f == ToFolder(it)
        {
          if f in here {
            var it :| it in PageItems(pages[0]) && IsLiveDirectory(it) && f == ToFolder(it);
            assert pages[0] in pages;
          }
        }
      }
    }
  }

  /** Two pages of 100 and 1 directory entries give one list of 101 folders
      after exactly two requests. */
  lemma TwoPages(first: seq<FileItem>, second: seq<FileItem>, cursor: int)
    requires |first| == 100 && |second| == 1 && cursor != EndCursor
    requires forall k :: 0 <= k < 100 ==> IsLiveDirectory(first[k])
    requires IsLiveDirectory(second[0])
    ensures var pages := [PageResponse(Some(0), Some(PageData(Some(first), Some(cursor)))),
                          PageResponse(Some(0), Some(PageData(Some(second), Some(EndCursor))))];
      Walk(pages).Found? && |Walk(pages).folders| == 101 && Requested(pages) == 2
  {
    KeptAllDirectories(first);
    KeptAllDirectories(second);
  }

  /** The query of the `k`-th page request: page 0 is asked for without a
      cursor, every later one with the cursor the page before returned. */
  function RequestFor(parentId: string, pages: seq<PageReply>, k: nat): PageRequest
    requires k <= |pages|
  {
    PageRequest(parentId, PageLimit, if k == 0 then None else CursorParam(NextCursor(pages[k - 1])))
  }

  /** Prepending twice is prepending the concatenation. */
  lemma PrefixedTwice(a: seq<Folder>, b: seq<Folder>, l: Listing)
    ensures Prefixed(a, Prefixed(b, l)) == Prefixed(a + b, l)
  {
  }

  /** One step of the walk, from page `i` on. */
  lemma WalkStep(pages: seq<PageReply>, i: int)
    requires 0 <= i < |pages|
    ensures pages[i].PageRaised? ==> Walk(pages[i..]) == Aborted(pages[i].error) && Requested(pages[i..]) == 0
    ensures pages[i].PageNoToken? ==> Walk(pages[i..]) == FetchFailed && Requested(pages[i..]) == 0
    ensures !PageOk(pages[i]) && Sends(pages[i]) ==> Walk(pages[i..]) == FetchFailed && Requested(pages[i..]) == 1
    ensures PageOk(pages[i]) && NextCursor(pages[i]) == EndCursor ==>
      Walk(pages[i..]) == Found(Kept(PageItems(pages[i]))) && Requested(pages[i..]) == 1
    ensures PageOk(pages[i]) && NextCursor(pages[i]) != EndCursor ==>
      Walk(pages[i..]) == Prefixed(Kept(PageItems(pages[i])), Walk(pages[i + 1..])) &&
      Requested(pages[i..]) == 1 + Requested(pages[i + 1..])
  {
    assert pages[i..][0] == pages[i];
    assert pages[i..][1..] == pages[i + 1..];
  }

  /** The inner loop of `get_folders`: append the live directories of one
      page to the folders found so far. */
  method AppendDirectories(found: seq<Folder>, fileList: seq<FileItem>) returns (allFolders: seq<Folder>)
    ensures allFolders == found + Kept(fileList)
  {
    allFolders := found;
    var j := 0;
    while j < |fileList|
      invariant 0 <= j <= |fileList|
      invariant allFolders == found + Kept(fileList[..j])
    {
      var item := fileList[j];
      if item.fileType == DirectoryType && (if item.trashed.Some? then item.trashed.value else 0) == 0 {
        allFolders := allFolders + [Folder(item.fileId, item.filename)];
      }
      assert fileList[..j + 1][..j] == fileList[..j];
      j := j + 1;
    }
    assert fileList[..j] == fileList;
  }

  /** The paging loop of `get_folders`. The cursor starts at 0, each request
      carries the previous page's `lastFileId` (none for 0), a failed page
      ends the walk with an error and no partial list (a page whose lookup
      gave no token is one, with no request sent), a lookup that raises
      ends it with that exception before the request goes out, and the walk
      stops after the page whose cursor is -1 (a missing cursor counts as
      -1). */
  method GetFolders(parentId: string, pages: seq<PageReply>) returns (r: Listing, sent: seq<PageRequest>)
    ensures r == Walk(pages)
    ensures |sent| == Requested(pages)
    ensures forall k :: 0 <= k < |sent| ==> sent[k] == RequestFor(parentId, pages, k)
  {
    var allFolders: seq<Folder> := [];
    var lastFileId := 0;
    var i := 0;
    sent := [];
    while i < |pages|
      invariant 0 <= i <= |pages|
      invariant |sent| == i
      invariant forall k :: 0 <= k < i ==> PageOk(pages[k]) && NextCursor(pages[k]) != EndCursor
      invariant lastFileId == if i == 0 then 0 else NextCursor(pages[i - 1])
      invariant forall k :: 0 <= k < i ==> sent[k] == RequestFor(parentId, pages, k)
      invariant Walk(pages) == Prefixed(allFolders, Walk(pages[i..]))
      invariant Requested(pages) == i + Requested(pages[i..])
    {
      var lastParam := if lastFileId != 0 then Some(lastFileId) else None;
      var listData := pages[i];
      if listData.PageRaised? {
        WalkStep(pages, i);
        return Aborted(listData.error), sent;
      }
      if listData.PageNoToken? {
        WalkStep(pages, i);
        return FetchFailed, sent;
      }
      assert PageRequest(parentId, PageLimit, lastParam) == RequestFor(parentId, pages, i);
      sent := sent + [PageRequest(parentId, PageLimit, lastParam)];
      if !(listData.PageResponse? && listData.code == Some(0)) {
        WalkStep(pages, i);
        return FetchFailed, sent;
      }
      var data := if listData.data.Some? then listData.data.value else PageData(None, None);
      var fileList := if data.fileList.Some? then data.fileList.value else [];
      ghost var before := allFolders;
      allFolders := AppendDirectories(allFolders, fileList);
      assert fileList == PageItems(listData);
      lastFileId := if data.lastFileId.Some? then data.lastFileId.value else EndCursor;
      assert lastFileId == NextCursor(listData);
      WalkStep(pages, i);
      PrefixedTwice(before, Kept(PageItems(listData)), Walk(pages[i + 1..]));
      i := i + 1;
      if lastFileId == EndCursor {
        return Found(allFolders), sent;
      }
    }
    return Unfinished, sent;
  }
}

=== FILE: Links.dfy ===
/** The input cleaning in `add_tasks`: the submitted text is split into
    lines as Python's `str.splitlines` does, every line is stripped as
    `str.strip` does, and empty lines are dropped. */
module Links {

  /** The characters for which Python's `str.isspace` holds; `str.strip()`
      removes exactly these from both ends. */
  predicate IsSpace(c: char)
  {
    c == ' ' || '\U{9}' <= c <= '\U{d}' || '\U{1c}' <= c <= '\U{1f}' ||
    c == '\U{85}' || c == '\U{a0}' || c == '\U{1680}' ||
    '\U{2000}' <= c <= '\U{200a}' || c == '\U{2028}' || c == '\U{2029}' ||
    c == '\U{202f}' || c == '\U{205f}' || c == '\U{3000}'
  }

  /** The characters at which `str.splitlines` ends a line (`\r\n` is one
      boundary made of two of them). */
  predicate IsLineBreak(c: char)
  {
    '\U{a}' <= c <= '\U{d}' || '\U{1c}' <= c <= '\U{1e}' ||
    c == '\U{85}' || c == '\U{2028}' || c == '\U{2029}'
  }

  predicate NoBreak(s: string)
  {
    forall k :: 0 <= k < |s| ==> !IsLineBreak(s[k])
  }

  /** No whitespace at either end: what `str.strip` leaves behind. */
  predicate Stripped(s: string)
  {
    s == [] || (!IsSpace(s[0]) && !IsSpace(s[|s| - 1]))
  }

  /** Index of the first line break in `s`, or `|s|` when there is none. */
  function LineEnd(s: string): (i: nat)
    ensures i <= |s|
    ensures NoBreak(s[..i])
    ensures i < |s| ==> IsLineBreak(s[i])
  {
    if s == [] || IsLineBreak(s[0]) then 0 else 1 + LineEnd(s[1..])
  }

  /** Width of the line boundary at `s[i]`: 2 for `\r\n`, 1 otherwise. */
  function BreakWidth(s: string, i: nat): nat
    requires i < |s|
  {
    if s[i] == '\r' && i + 1 < |s| && s[i + 1] == '\n' then 2 else 1
  }

  /** Python's `str.splitlines()`: the line breaks are dropped, `\r\n`
      counts as one boundary, and a break at the very end does not open an
      empty last line. */
  function SplitLines(s: string): (lines: seq<string>)
    ensures forall l :: l in lines ==> NoBreak(l)
    decreases |s|
  {
    if s == [] then []
    else
      var i := LineEnd(s);
      if i == |s| then [s]
      else [s[..i]] + SplitLines(s[i + BreakWidth(s, i)..])
  }

  /** The boundary `splitlines` removed after each of its lines; `""` after
      a last line that the text does not terminate. */
  function LineEnds(s: string): (ends: seq<string>)
    decreases |s|
  {
    if s == [] then []
    else
      var i := LineEnd(s);
      if i == |s| then [""]
      else [s[i..i + BreakWidth(s, i)]] + LineEnds(s[i + BreakWidth(s, i)..])
  }

  /** A line boundary: `\r\n` or a single line-break character. */
  predicate IsTerminator(e: string)
  {
    e == "\r\n" || (|e| == 1 && IsLineBreak(e[0]))
  }

  /** Each line followed by its boundary. */
  function JoinEnds(lines: seq<string>, ends: seq<string>): string
    requires |ends| == |lines|
  {
    if lines == [] then "" else lines[0] + ends[0] + JoinEnds(lines[1..], ends[1..])
  }

  /** The shape of a text cut into lines the way `splitlines` cuts it: the
      lines hold no break, every line but the last is followed by a
      boundary, the last is followed by a boundary or is non-empty, and a
      lone `\r` is never followed by an empty line ended by `\n` (that would
      be one `\r\n` boundary). */
  predicate WellEnded(lines: seq<string>, ends: seq<string>)
  {
    |ends| == |lines| &&
    (forall i :: 0 <= i < |lines| ==> NoBreak(lines[i])) &&
    (forall i :: 0 <= i < |lines| - 1 ==> IsTerminator(ends[i])) &&
    (lines != [] ==> IsTerminator(ends[|lines| - 1]) || (ends[|lines| - 1] == "" && lines[|lines| - 1] != "")) &&
    (forall i :: 0 <= i < |lines| - 1 && ends[i] == "\r" ==> !(lines[i + 1] == "" && ends[i + 1] == "\n"))
  }

  /** The boundary that starts at a break is a terminator, and a lone
      `\r` boundary is not followed by `\n`. */
  lemma BoundaryAt(s: string, i: nat)
    requires i < |s| && IsLineBreak(s[i])
    ensures var next := i + BreakWidth(s, i);
      next <= |s| && s == s[..i] + s[i..next] + s[next..] &&
      IsTerminator(s[i..next]) &&
      (s[i..next] == "\r" && next < |s| ==> s[next] != '\n')
  {
    var next := i + BreakWidth(s, i);
    if next == i + 2 {
      assert s[i..next] == [s[i], s[i + 1]];
    } else {
      assert s[i..next] == [s[i]];
    }
  }

  /** One step of `splitlines`: the first line, its boundary and the rest. */
  lemma SplitStep(s: string)
    requires s != [] && LineEnd(s) < |s|
    ensures var i := LineEnd(s); var next := i + BreakWidth(s, i);
      next <= |s| &&
      SplitLines(s) == [s[..i]] + SplitLines(s[next..]) &&
      LineEnds(s) == [s[i..next]] + LineEnds(s[next..]) &&
      s == s[..i] + s[i..next] + s[next..] &&
      IsTerminator(s[i..next]) &&
      (s[i..next] == "\r" && next < |s| ==> s[next] != '\n')
  {
    BoundaryAt(s, LineEnd(s));
  }

  /** The first character of a join is that of its first line and boundary. */
  lemma JoinEndsHead(lines: seq<string>, ends: seq<string>)
    requires |ends| == |lines| && lines != [] && lines[0] + ends[0] != []
    ensures JoinEnds(lines, ends) != [] && JoinEnds(lines, ends)[0] == (lines[0] + ends[0])[0]
  {
    assert JoinEnds(lines, ends) == (lines[0] + ends[0]) + JoinEnds(lines[1..], ends[1..]);
  }

  /** Putting a line and its boundary in front keeps the shape. */
  lemma WellEndedCons(l: string, e: string, lines: seq<string>, ends: seq<string>)
    requires NoBreak(l) && IsTerminator(e) && WellEnded(lines, ends)
    requires e == "\r" && lines != [] ==> !(lines[0] == "" && ends[0] == "\n")
    ensures WellEnded([l] + lines, [e] + ends)
  {
    var ls, es := [l] + lines, [e] + ends;
    forall k | 0 <= k < |ls|
      ensures NoBreak(ls[k])
    {
      if k > 0 { assert ls[k] == lines[k - 1]; }
    }
    forall k | 0 <= k < |ls| - 1
      ensures IsTerminator(es[k])
    {
      if k > 0 { assert es[k] == ends[k - 1]; }
    }
    forall k | 0 <= k < |ls| - 1 && es[k] == "\r"
      ensures !(ls[k + 1] == "" && es[k + 1] == "\n")
    {
      assert ls[k + 1] == lines[k] && es[k + 1] == ends[k];
      if k > 0 { assert ls[k] == lines[k - 1] && es[k] == ends[k - 1]; }
    }
    if lines != [] {
      assert ls[|ls| - 1] == lines[|lines| - 1] && es[|ls| - 1] == ends[|lines| - 1];
    }
  }

  /** What the shape says of the first line, and that the rest keeps it. */
  lemma WellEndedTail(lines: seq<string>, ends: seq<string>)
    requires WellEnded(lines, ends) && lines != []
    ensures WellEnded(lines[1..], ends[1..])
    ensures NoBreak(lines[0])
    ensures IsTerminator(ends[0]) || (|lines| == 1 && ends[0] == "" && lines[0] != "")
    ensures |lines| > 1 && ends[0] == "\r" ==> !(lines[1] == "" && ends[1] == "\n")
    ensures |lines| > 1 && lines[1] == "" ==> IsTerminator(ends[1])
  {
    assert forall k :: 0 <= k < |lines| - 1 ==> lines[1..][k] == lines[k + 1] && ends[1..][k] == ends[k + 1];
  }

  /** Every text is exactly its `splitlines` lines, each followed by the
      boundary that ended it, and that cut has the shape `WellEnded`. */
  lemma {:induction false} SplitLinesExact(s: string)
    ensures WellEnded(SplitLines(s), LineEnds(s))
    ensures JoinEnds(SplitLines(s), LineEnds(s)) == s
    decreases |s|
  {
    if s != [] {
      var i := LineEnd(s);
      if i == |s| {
        assert s[..i] == s;
      } else {
        SplitStep(s);
        var next := i + BreakWidth(s, i);
        var rest := s[next..];
        SplitLinesExact(rest);
        var rl, re := SplitLines(rest), LineEnds(rest);
        if s[i..next] == "\r" && rl != [] && rl[0] == "" && re[0] == "\n" {
          JoinEndsHead(rl, re);
        }
        WellEndedCons(s[..i], s[i..next], rl, re);
        assert JoinEnds([s[..i]] + rl, [s[i..next]] + re) == s[..i] + s[i..next] + JoinEnds(rl, re) by {
          assert ([s[..i]] + rl)[1..] == rl && ([s[i..next]] + re)[1..] == re;
        }
      }
    }
  }

  /** In a break-free line followed by a break, the line ends at that break. */
  lemma LineEndAtBreak(l: string, c: char, rest: string)
    requires NoBreak(l) && IsLineBreak(c)
    ensures LineEnd(l + [c] + rest) == |l|
  {
    var s := l + [c] + rest;
    assert s[|l|] == c;
    assert s[..|l|] == l;
  }

  /** Joining one line and its boundary in front of a text. */
  lemma JoinStep(l: string, e: string, rest: string)
    requires NoBreak(l) && IsTerminator(e)
    requires e == "\r" && rest != [] ==> rest[0] != '\n'
    ensures var s := l + e + rest; var i := |l|;
      LineEnd(s) == i && i < |s| && i + BreakWidth(s, i) == i + |e| &&
      s[..i] == l && s[i..i + |e|] == e && s[i + |e|..] == rest
  {
    var s := l + e + rest;
    LineEndAtBreak(l, e[0], e[1..] + rest);
    assert s == l + [e[0]] + (e[1..] + rest);
    var i := |l|;
    assert s[..i] == l;
    if e == "\r\n" {
      assert s[i] == '\r' && s[i + 1] == '\n';
      assert s[i..i + 2] == e && s[i + 2..] == rest;
    } else {
      assert s[i + 1..] == rest && s[i..i + 1] == e;
      if e[0] == '\r' && i + 1 < |s| {
        assert s[i + 1] == rest[0];
      }
    }
  }

  /** Splitting undoes joining: a text assembled from lines and boundaries of
      the shape `WellEnded` splits into exactly those lines and boundaries.
      With `SplitLinesExact`, the cut `splitlines` makes is the only cut of
      that shape. */
  lemma {:induction false} SplitJoinEnds(lines: seq<string>, ends: seq<string>)
    requires WellEnded(lines, ends)
    ensures SplitLines(JoinEnds(lines, ends)) == lines
    ensures LineEnds(JoinEnds(lines, ends)) == ends
  {
    if lines != [] {
      WellEndedTail(lines, ends);
      var l, e := lines[0], ends[0];
      var rest := JoinEnds(lines[1..], ends[1..]);
      var s := JoinEnds(lines, ends);
      assert s == l + e + rest;
      if e == "" {
        assert s == l;
      } else {
        if e == "\r" && rest != [] {
          JoinEndsHead(lines[1..], ends[1..]);
        }
        JoinStep(l, e, rest);
        SplitJoinEnds(lines[1..], ends[1..]);
        assert [l] + lines[1..] == lines && [e] + ends[1..] == ends;
      }
    }
  }

  /** `str.lstrip()`: the longest suffix of `s` that does not start with whitespace. */
  function StripLeft(s: string): (r: string)
    ensures |r| <= |s| && r == s[|s| - |r|..]
    ensures forall k :: 0 <= k < |s| - |r| ==> IsSpace(s[k])
    ensures r != [] ==> !IsSpace(r[0])
  {
    if s != [] && IsSpace(s[0]) then StripLeft(s[1..]) else s
  }

  /** `str.rstrip()`: the longest prefix of `s` that does not end with whitespace. */
  function StripRight(s: string): (r: string)
    ensures |r| <= |s| && r == s[..|r|]
    ensures forall k :: |r| <= k < |s| ==> IsSpace(s[k])
    ensures r != [] ==> !IsSpace(r[|r| - 1])
  {
    if s != [] && IsSpace(s[|s| - 1]) then StripRight(s[..|s| - 1]) else s
  }

  /** Stripping both ends leaves no whitespace at either end, changes a
      stripped text in nothing, and keeps only characters of the text. */
  lemma StripBothEnds(s: string)
    ensures var r := StripRight(StripLeft(s));
      Stripped(r) && (Stripped(s) ==> r == s) && (NoBreak(s) ==> NoBreak(r))
  {
    var l := StripLeft(s);
    var r := StripRight(l);
    if s != [] && !IsSpace(s[0]) {
      assert l == s;
    }
    if l != [] && !IsSpace(l[|l| - 1]) {
      assert r == l;
    }
    if NoBreak(s) {
      forall k | 0 <= k < |r|
        ensures !IsLineBreak(r[k])
      {
        assert r[k] == l[k] == s[|s| - |l| + k];
      }
    }
  }

  /** `str.strip()` with no argument. */
  function Strip(s: string): (r: string)
    ensures Stripped(r)
    ensures Stripped(s) ==> r == s
    ensures NoBreak(s) ==> NoBreak(r)
  {
    StripBothEnds(s);
    StripRight(StripLeft(s))
  }

  /** The comprehension `[l.strip() for l in lines if l.strip()]`: a line
      whose strip is not empty gives that strip as a link, and every link is
      the strip of some line. */
  function Clean(lines: seq<string>): (links: seq<string>)
    ensures |links| <= |lines|
    ensures forall l :: l in links ==> l != [] && Stripped(l)
    ensures (forall l :: l in lines ==> NoBreak(l)) ==> forall l :: l in links ==> NoBreak(l)
  {
    if lines == [] then []
    else
      var n := |lines| - 1;
      var l := Strip(lines[n]);
      assert forall x :: x in lines[..n] ==> x in lines;
      Clean(lines[..n]) + (if l != [] then [l] else [])
  }

  /** Both directions of the comprehension's membership: the strip of every
      non-blank line is a link, and every link is the strip of a line. */
  lemma {:induction false} CleanMembers(lines: seq<string>)
    ensures forall i :: 0 <= i < |lines| && Strip(lines[i]) != [] ==> Strip(lines[i]) in Clean(lines)
    ensures forall x :: x in Clean(lines) ==> exists i :: 0 <= i < |lines| && Strip(lines[i]) == x
  {
    LinkIndicesExact(lines);
    CleanAtLinkIndices(lines);
    var idx := LinkIndices(lines);
    forall x | x in Clean(lines)
      ensures exists i :: 0 <= i < |lines| && Strip(lines[i]) == x
    {
      var k :| 0 <= k < |Clean(lines)| && Clean(lines)[k] == x;
      assert Strip(lines[idx[k]]) == x;
    }
    forall i | 0 <= i < |lines| && Strip(lines[i]) != []
      ensures Strip(lines[i]) in Clean(lines)
    {
      StripEmpty(lines[i]);
      assert i in idx;
      var k :| 0 <= k < |idx| && idx[k] == i;
      assert Clean(lines)[k] == Strip(lines[i]);
    }
  }

  /** A line that is all whitespace, which the comprehension drops. */
  predicate Blank(l: string)
  {
    forall k :: 0 <= k < |l| ==> IsSpace(l[k])
  }

  /** `l.strip()` is empty exactly when `l` is all whitespace. */
  lemma StripEmpty(l: string)
    ensures Strip(l) == [] <==> Blank(l)
  {
  }

  /** Positions of the lines that give a link, in increasing order. */
  function LinkIndices(lines: seq<string>): seq<nat>
  {
    if lines == [] then []
    else
      var n := |lines| - 1;
      LinkIndices(lines[..n]) + (if Blank(lines[n]) then [] else [n])
  }

  /** The link positions are valid and strictly increasing, and a line
      gives a link exactly when its strip is not empty. */
  lemma {:induction false} LinkIndicesExact(lines: seq<string>)
    ensures var idx := LinkIndices(lines);
      (forall k :: 0 <= k < |idx| ==> idx[k] < |lines|) &&
      (forall k, l :: 0 <= k < l < |idx| ==> idx[k] < idx[l]) &&
      (forall i :: 0 <= i < |lines| ==> (i in idx <==> !Blank(lines[i])))
  {
    if lines != [] {
      var n := |lines| - 1;
      LinkIndicesExact(lines[..n]);
      var init, idx := LinkIndices(lines[..n]), LinkIndices(lines);
      assert idx == init + (if Blank(lines[n]) then [] else [n]);
      forall i | 0 <= i < |lines|
        ensures i in idx <==> !Blank(lines[i])
      {
        if i < n {
          assert lines[..n][i] == lines[i];
          assert i in idx <==> i in init;
        } else {
          assert i !in init;
        }
      }
    }
  }

  /** `Clean` takes the strips of the lines at the link positions, in
      order: the k-th link is the strip of the k-th non-blank line. */
  lemma {:induction false} CleanAtLinkIndices(lines: seq<string>)
    ensures var idx := LinkIndices(lines);
      |Clean(lines)| == |idx| &&
      forall k :: 0 <= k < |idx| ==> idx[k] < |lines| && Clean(lines)[k] == Strip(lines[idx[k]])
  {
    LinkIndicesExact(lines);
    if lines != [] {
      var n := |lines| - 1;
      var last := Strip(lines[n]);
      StripEmpty(lines[n]);
      CleanAtLinkIndices(lines[..n]);
      var init, links := LinkIndices(lines[..n]), Clean(lines[..n]);
      var idx := init + (if last != [] then [n] else []);
      assert LinkIndices(lines) == idx;
      assert Clean(lines) == links + (if last != [] then [last] else []);
      forall k | 0 <= k < |idx|
        ensures idx[k] < |lines| && Clean(lines)[k] == Strip(lines[idx[k]])
      {
        if k < |init| {
          assert lines[..n][init[k]] == lines[init[k]];
        }
      }
    }
  }

  /** The links `add_tasks` submits for the text of the form's `links` field. */
  function ParseLinks(text: string): (links: seq<string>)
    ensures forall l :: l in links ==> l != [] && Stripped(l) && NoBreak(l)
  {
    Clean(SplitLines(text))
  }

  /** The boundaries of lines typed one per line: `\n` after each line but
      the last, nothing after the last. */
  function NewlineEnds(n: nat): (ends: seq<string>)
    ensures |ends| == n
    ensures forall i :: 0 <= i < n ==> ends[i] == if i < n - 1 then "\n" else ""
  {
    if n == 0 then [] else if n == 1 then [""] else ["\n"] + NewlineEnds(n - 1)
  }

  /** One link per line, as a user types them into the form. */
  function JoinLines(ls: seq<string>): string
  {
    JoinEnds(ls, NewlineEnds(|ls|))
  }

  /** Splitting undoes joining for lines that hold no break and are not
      empty: the `\n` case of `SplitJoinEnds`. */
  lemma SplitJoin(ls: seq<string>)
    requires forall l :: l in ls ==> l != [] && NoBreak(l)
    ensures SplitLines(JoinLines(ls)) == ls
  {
    var ends := NewlineEnds(|ls|);
    assert forall i :: 0 <= i < |ls| ==> ls[i] in ls;
    assert WellEnded(ls, ends);
    SplitJoinEnds(ls, ends);
  }

  /** Clean keeps lines that are already clean and non-empty as they are. */
  lemma {:induction false} CleanKeepsCleanLines(lines: seq<string>)
    requires forall l :: l in lines ==> l != [] && Stripped(l)
    ensures Clean(lines) == lines
  {
    if lines != [] {
      var n := |lines| - 1;
      var init, last := lines[..n], lines[n];
      assert lines == init + [last];
      assert last in lines;
      assert Strip(last) == last;
      assert forall x :: x in init ==> x in lines;
      CleanKeepsCleanLines(init);
    }
  }

  /** Writing links one per line and parsing the text gives back exactly
      those links, in order: nothing is lost, merged, split or reordered. */
  lemma ParseJoinRoundTrip(links: seq<string>)
    requires forall l :: l in links ==> l != [] && Stripped(l) && NoBreak(l)
    ensures ParseLinks(JoinLines(links)) == links
  {
    SplitJoin(links);
    CleanKeepsCleanLines(links);
  }

  /** For every text of lines and boundaries, the links are the strips of
      its non-blank lines, in order, whatever the boundaries are (`\r\n`,
      `\n`, any other break) and however the lines are padded. */
  lemma ParseLinksOfLines(lines: seq<string>, ends: seq<string>)
    requires WellEnded(lines, ends)
    ensures ParseLinks(JoinEnds(lines, ends)) == Clean(lines)
  {
    SplitJoinEnds(lines, ends);
  }

  /** Parsing any text gives the strips of its non-blank `splitlines`
      lines in order, and the text is exactly those lines with their
      boundaries. */
  lemma ParseLinksExact(text: string)
    ensures var lines, idx := SplitLines(text), LinkIndices(SplitLines(text));
      WellEnded(lines, LineEnds(text)) &&
      JoinEnds(lines, LineEnds(text)) == text &&
      |ParseLinks(text)| == |idx| &&
      (forall k :: 0 <= k < |idx| ==> idx[k] < |lines| && ParseLinks(text)[k] == Strip(lines[idx[k]])) &&
      (forall k, l :: 0 <= k < l < |idx| ==> idx[k] < idx[l]) &&
      (forall i :: 0 <= i < |lines| ==> (i in idx <==> Strip(lines[i]) != []))
  {
    SplitLinesExact(text);
    LinkIndicesExact(SplitLines(text));
    CleanAtLinkIndices(SplitLines(text));
  }

  /** Parsing is idempotent: re-submitting the parsed links one per line
      yields the same links. */
  lemma ParseLinksIdempotent(text: string)
    ensures ParseLinks(JoinLines(ParseLinks(text))) == ParseLinks(text)
  {
    ParseJoinRoundTrip(ParseLinks(text));
  }
}

=== FILE: Tasks.dfy ===
/** The task-ID registry: the ordered, duplicate-free list `task_ids` kept in
    the configuration, the submission loop of `add_tasks`, the status map
    of `get_tasks_status` and the pruning loop of `clear_completed_tasks`.
    Every network reply is an input, one per call, in call order. */
module Tasks {
  import opened Common

  type TaskId = int

  predicate NoDup(s: seq<TaskId>)
  {
    forall i, j :: 0 <= i < j < |s| ==> s[i] != s[j]
  }

  // ---------------------------------------------------------------------
  // Submission (`add_tasks`)
  // ---------------------------------------------------------------------

  /** The body of `POST /api/v1/offline/download`. */
  datatype DownloadRequest = DownloadRequest(url: string, dirID: Option<int>)

  /** What `api_request` did for one submission: the token lookup inside it
      raised before any request went out, the lookup gave no token and
      nothing was sent, the request was sent and failed, or it returned a
      body with its `code` and `data.taskID`. */
  datatype SubmitReply =
    | SubmitRaised(error: Error)
    | SubmitNoToken
    | SubmitFailed
    | SubmitResponse(code: Option<int>, taskId: TaskId)

  predicate Accepted(r: SubmitReply)
  {
    r.SubmitResponse? && r.code == Some(0)
  }

  /** `s.isdigit()` for ASCII digits, which includes being non-empty. */
  predicate IsDigits(s: string)
  {
    s != [] && forall k :: 0 <= k < |s| ==> '0' <= s[k] <= '9'
  }

  /** `int(s)` for a string of ASCII digits. */
  function DigitsValue(s: string): nat
    requires IsDigits(s)
  {
    if |s| == 1 then (s[0] as int - '0' as int)
    else DigitsValue(s[..|s| - 1]) * 10 + (s[|s| - 1] as int - '0' as int)
  }

  /** The decimal spelling of `n`, as `str(n)` writes it. */
  function DecimalString(n: nat): (s: string)
    ensures IsDigits(s)
  {
    var d := ['0' + (n % 10) as char];
    if n < 10 then d else DecimalString(n / 10) + d
  }

  /** The `dirID` put into each request: present exactly when the form's
      `dirID` field is present, non-empty and all digits. */
  function DirParam(dirId: Option<string>): (p: Option<int>)
    ensures p.Some? <==> dirId.Some? && IsDigits(dirId.value)
  {
    if dirId.Some? && dirId.value != "" && IsDigits(dirId.value) then Some(DigitsValue(dirId.value)) else None
  }

  /** A directory number typed in decimal reaches the request unchanged. */
  lemma {:induction false} DirParamRoundTrip(n: nat)
    ensures DirParam(Some(DecimalString(n))) == Some(n)
  {
    DigitsDecimal(n);
  }

  lemma {:induction false} DigitsDecimal(n: nat)
    ensures DigitsValue(DecimalString(n)) == n
  {
    if n >= 10 {
      var s := DecimalString(n);
      assert s[..|s| - 1] == DecimalString(n / 10);
      DigitsDecimal(n / 10);
    }
  }

  /** `task_ids` after one reply: a new ID is appended, a known one is not. */
  function Track(ids: seq<TaskId>, r: SubmitReply): (t: seq<TaskId>)
    ensures ids <= t && |t| <= |ids| + 1
    ensures Accepted(r) ==> r.taskId in t
    ensures forall x :: x in t ==> x in ids || (Accepted(r) && x == r.taskId)
    ensures NoDup(ids) ==> NoDup(t)
  {
    if Accepted(r) && r.taskId !in ids then ids + [r.taskId] else ids
  }

  /** `task_ids` after the submission loop has seen `replies` in order. */
  function Register(ids: seq<TaskId>, replies: seq<SubmitReply>): seq<TaskId>
  {
    if replies == [] then ids
    else Track(Register(ids, replies[..|replies| - 1]), replies[|replies| - 1])
  }

  /** `added_count`: the number of successful submissions. */
  function AcceptedCount(replies: seq<SubmitReply>): (n: nat)
    ensures n <= |replies|
  {
    if replies == [] then 0
    else AcceptedCount(replies[..|replies| - 1]) + (if Accepted(replies[|replies| - 1]) then 1 else 0)
  }

  /** The tracked list only grows at its end. */
  lemma {:induction false} RegisterExtends(ids: seq<TaskId>, replies: seq<SubmitReply>)
    ensures ids <= Register(ids, replies)
  {
    if replies != [] {
      RegisterExtends(ids, replies[..|replies| - 1]);
    }
  }

  /** A duplicate-free list stays duplicate-free. */
  lemma {:induction false} RegisterNoDup(ids: seq<TaskId>, replies: seq<SubmitReply>)
    requires NoDup(ids)
    ensures NoDup(Register(ids, replies))
  {
    if replies != [] {
      RegisterNoDup(ids, replies[..|replies| - 1]);
    }
  }

  /** An ID is tracked afterwards exactly when it was tracked before or some
      submission returned it with `code == 0`. */
  lemma {:induction false} RegisterMembers(ids: seq<TaskId>, replies: seq<SubmitReply>, x: TaskId)
    ensures x in Register(ids, replies) <==>
      x in ids || exists i :: 0 <= i < |replies| && Accepted(replies[i]) && replies[i].taskId == x
  {
    if replies != [] {
      var init := replies[..|replies| - 1];
      RegisterMembers(ids, init, x);
      assert forall i :: 0 <= i < |init| ==> init[i] == replies[i];
    }
  }

  /** Position of the first submission accepted with ID `x`; `|replies|`
      when there is none. */
  function FirstReturn(replies: seq<SubmitReply>, x: TaskId): (f: nat)
    ensures f <= |replies|
    ensures f < |replies| ==> Accepted(replies[f]) && replies[f].taskId == x
    ensures forall i :: 0 <= i < f ==> !(Accepted(replies[i]) && replies[i].taskId == x)
  {
    if replies == [] then 0
    else if Accepted(replies[0]) && replies[0].taskId == x then 0
    else 1 + FirstReturn(replies[1..], x)
  }

  /** The IDs appended are new, each was returned by some accepted
      submission, and they are appended in the order of the submission that
      first returned them. */
  lemma {:induction false} RegisterOrder(ids: seq<TaskId>, replies: seq<SubmitReply>)
    ensures var r := Register(ids, replies);
      (forall k :: |ids| <= k < |r| ==> r[k] !in ids && FirstReturn(replies, r[k]) < |replies|) &&
      (forall k, l :: |ids| <= k < l < |r| ==> FirstReturn(replies, r[k]) < FirstReturn(replies, r[l]))
  {
    if replies != [] {
      var n := |replies| - 1;
      var init := replies[..n];
      RegisterOrder(ids, init);
      RegisterExtends(ids, init);
      var before, r := Register(ids, init), Register(ids, replies);
      forall k | |ids| <= k < |before|
        ensures FirstReturn(replies, before[k]) == FirstReturn(init, before[k])
      {
        var f := FirstReturn(init, before[k]);
        assert init[f] == replies[f];
        assert forall i :: 0 <= i < f ==> init[i] == replies[i];
      }
      if |r| > |before| {
        var x := replies[n].taskId;
        assert r == before + [x] && x !in before;
        RegisterMembers(ids, init, x);
        assert x !in ids;
        assert forall i :: 0 <= i < n ==> init[i] == replies[i];
        assert FirstReturn(replies, x) == n;
      }
    }
  }

  /** The list grows by at most the number of successful submissions. */
  lemma {:induction false} RegisterGrowth(ids: seq<TaskId>, replies: seq<SubmitReply>)
    ensures |ids| <= |Register(ids, replies)| <= |ids| + AcceptedCount(replies)
  {
    if replies != [] {
      RegisterGrowth(ids, replies[..|replies| - 1]);
    }
  }

  /** Replies whose IDs are all tracked already change nothing. */
  lemma {:induction false} RegisterKnown(ids: seq<TaskId>, replies: seq<SubmitReply>)
    requires forall i :: 0 <= i < |replies| && Accepted(replies[i]) ==> replies[i].taskId in ids
    ensures Register(ids, replies) == ids
  {
    if replies != [] {
      RegisterKnown(ids, replies[..|replies| - 1]);
    }
  }

  /** Submitting the same links again with the same answers adds nothing. */
  lemma RegisterIdempotent(ids: seq<TaskId>, replies: seq<SubmitReply>)
    ensures Register(Register(ids, replies), replies) == Register(ids, replies)
  {
    var once := Register(ids, replies);
    forall i | 0 <= i < |replies| && Accepted(replies[i])
      ensures replies[i].taskId in once
    {
      RegisterMembers(ids, replies, replies[i].taskId);
    }
    RegisterKnown(once, replies);
  }

  /** Three links of which the second fails and the others return distinct
      IDs: two IDs are tracked and two of three submissions count as added. */
  lemma ThreeSubmissions(a: TaskId, b: TaskId)
    requires a != b
    ensures var replies := [SubmitResponse(Some(0), a), SubmitFailed, SubmitResponse(Some(0), b)];
      Register([], replies) == [a, b] && AcceptedCount(replies) == 2
  {
    var replies := [SubmitResponse(Some(0), a), SubmitFailed, SubmitResponse(Some(0), b)];
    var first := [SubmitResponse(Some(0), a)];
    assert first[..0] == [];
    assert Register([], first) == [a];
    assert replies[..2][..1] == first;
    assert Register([], replies[..2]) == [a];
    assert AcceptedCount(first) == 1;
    assert AcceptedCount(replies[..2]) == 1;
  }

  /** The number of submissions made before the first one whose token
      lookup raised; all of them when none did. */
  function SubmitsBeforeRaise(replies: seq<SubmitReply>): (n: nat)
    ensures n <= |replies|
    ensures n < |replies| ==> replies[n].SubmitRaised?
    ensures forall i :: 0 <= i < n ==> !replies[i].SubmitRaised?
  {
    if replies == [] || replies[0].SubmitRaised? then 0 else 1 + SubmitsBeforeRaise(replies[1..])
  }

  /** The requests that reach the network for `links`, given the replies
      of their token lookups: one per link, in order, except for the links
      whose lookup gave no token. */
  function Sent(links: seq<string>, replies: seq<SubmitReply>, dir: Option<int>): (s: seq<DownloadRequest>)
    requires |replies| == |links|
    ensures |s| <= |links|
    ensures forall k :: 0 <= k < |s| ==> s[k].dirID == dir && s[k].url in links
  {
    if links == [] then []
    else
      var n := |links| - 1;
      var before := Sent(links[..n], replies[..n], dir);
      if replies[n].SubmitNoToken? then before else before + [DownloadRequest(links[n], dir)]
  }

  /** When every lookup gave a token, the `k`-th request is for the `k`-th
      link. */
  lemma {:induction false} SentAll(links: seq<string>, replies: seq<SubmitReply>, dir: Option<int>)
    requires |replies| == |links|
    requires forall k :: 0 <= k < |replies| ==> !replies[k].SubmitNoToken?
    ensures |Sent(links, replies, dir)| == |links|
    ensures forall k :: 0 <= k < |links| ==> Sent(links, replies, dir)[k] == DownloadRequest(links[k], dir)
  {
    if links != [] {
      var n := |links| - 1;
      var before := Sent(links[..n], replies[..n], dir);
      assert Sent(links, replies, dir) == before + [DownloadRequest(links[n], dir)];
      SentAll(links[..n], replies[..n], dir);
      forall k | 0 <= k < |links|
        ensures Sent(links, replies, dir)[k] == DownloadRequest(links[k], dir)
      {
        if k < n { assert links[..n][k] == links[k]; }
      }
    }
  }

  /** A link whose lookup gave a token is sent, with the form's `dirID`. */
  lemma {:induction false} SentMembers(links: seq<string>, replies: seq<SubmitReply>, dir: Option<int>)
    requires |replies| == |links|
    ensures forall k :: 0 <= k < |links| && !replies[k].SubmitNoToken? ==>
      DownloadRequest(links[k], dir) in Sent(links, replies, dir)
  {
    if links != [] {
      var n := |links| - 1;
      SentMembers(links[..n], replies[..n], dir);
      forall k | 0 <= k < n && !replies[k].SubmitNoToken?
        ensures DownloadRequest(links[k], dir) in Sent(links, replies, dir)
      {
        assert replies[..n][k] == replies[k] && links[..n][k] == links[k];
      }
    }
  }

  /** The loop of `add_tasks` over the parsed links: one request per link
      whose token lookup gave a token, each accepted reply's ID appended
      unless already tracked, and the accepted replies counted. A lookup
      that gives no token sends nothing and the loop goes on; a lookup that
      raises ends the loop with its exception before that link's request is
      sent. */
  method SubmitAll(ids: seq<TaskId>, links: seq<string>, dirId: Option<string>, replies: seq<SubmitReply>)
    returns (taskIds: seq<TaskId>, added: nat, sent: seq<DownloadRequest>, raised: Option<Error>)
    requires |replies| == |links|
    ensures var n := SubmitsBeforeRaise(replies);
      raised == (if n < |replies| then Some(replies[n].error) else None) &&
      taskIds == Register(ids, replies[..n]) && added == AcceptedCount(replies[..n]) &&
      sent == Sent(links[..n], replies[..n], DirParam(dirId)) && |sent| <= n
    ensures raised.None? ==>
      taskIds == Register(ids, replies) && added == AcceptedCount(replies) && sent == Sent(links, replies, DirParam(dirId))
    ensures (forall k :: 0 <= k < |replies| ==> !replies[k].SubmitRaised? && !replies[k].SubmitNoToken?) ==>
      raised.None? && |sent| == |links| &&
      forall k :: 0 <= k < |links| ==> sent[k] == DownloadRequest(links[k], DirParam(dirId))
    ensures ids <= taskIds
    ensures NoDup(ids) ==> NoDup(taskIds)
    ensures |taskIds| - |ids| <= added <= |links|
  {
    taskIds, added, sent, raised := ids, 0, [], None;
    var i := 0;
    while i < |links|
      invariant 0 <= i <= |links|
      invariant forall k :: 0 <= k < i ==> !replies[k].SubmitRaised?
      invariant taskIds == Register(ids, replies[..i])
      invariant added == AcceptedCount(replies[..i])
      invariant sent == Sent(links[..i], replies[..i], DirParam(dirId))
    {
      var payload := DownloadRequest(links[i], None);
      if dirId.Some? && dirId.value != "" && IsDigits(dirId.value) {
        payload := payload.(dirID := Some(DigitsValue(dirId.value)));
      }
      var result := replies[i];
      if result.SubmitRaised? {
        raised := Some(result.error);
        break;
      }
      assert payload == DownloadRequest(links[i], DirParam(dirId));
      assert replies[..i + 1][..i] == replies[..i] && links[..i + 1][..i] == links[..i];
      if !result.SubmitNoToken? {
        sent := sent + [payload];
      }
      if result.SubmitResponse? && result.code == Some(0) {
        var taskId := result.taskId;
        if taskId !in taskIds {
          taskIds := taskIds + [taskId];
        }
        added := added + 1;
      }
      i := i + 1;
    }
    assert i == SubmitsBeforeRaise(replies);
    assert raised.None? ==> replies[..i] == replies && links[..i] == links;
    if forall k :: 0 <= k < |replies| ==> !replies[k].SubmitRaised? && !replies[k].SubmitNoToken? {
      SentAll(links, replies, DirParam(dirId));
    }
    RegisterExtends(ids, replies[..i]);
    RegisterGrowth(ids, replies[..i]);
    if NoDup(ids) {
      RegisterNoDup(ids, replies[..i]);
    }
  }

  // ---------------------------------------------------------------------
  // Status polling (`get_tasks_status`, `clear_completed_tasks`)
  // ---------------------------------------------------------------------

  /** The `data` object of a progress reply; `status` may be missing. */
  datatype Progress = Progress(status: Option<int>, process: int, statusText: Option<string>)

  /** What `api_request` did for one status poll: the token lookup raised,
      nothing came back (no token, or the request failed: the loops treat
      both alike and no requests are logged for polls), or a body came
      back. */
  datatype PollReply =
    | PollRaised(error: Error)
    | PollFailed
    | PollResponse(code: Option<int>, data: Progress)

  /** The number of polls made before the first one whose token lookup
      raised; all of them when none did. */
  function PollsBeforeRaise(replies: seq<PollReply>): (n: nat)
    ensures n <= |replies|
    ensures n < |replies| ==> replies[n].PollRaised?
    ensures forall i :: 0 <= i < n ==> !replies[i].PollRaised?
  {
    if replies == [] || replies[0].PollRaised? then 0 else 1 + PollsBeforeRaise(replies[1..])
  }

  /** The exception that ends a polling loop, if any. */
  function PollRaise(replies: seq<PollReply>): (e: Option<Error>)
    ensures e.Some? <==> exists i :: 0 <= i < |replies| && replies[i].PollRaised?
  {
    var n := PollsBeforeRaise(replies);
    if n < |replies| then Some(replies[n].error) else None
  }

  predicate PollOk(r: PollReply)
  {
    r.PollResponse? && r.code == Some(0)
  }

  /** The record reported for a task whose poll failed. */
  const QueryFailed: Progress := Progress(Some(-1), 0, Some("查询失败"))

  /** The status-map entry for one poll. */
  function Reported(r: PollReply): (p: Progress)
    ensures !PollOk(r) ==> p.status == Some(-1) && p.process == 0
  {
    if PollOk(r) then r.data else QueryFailed
  }

  /** No later position of `ids` before `n` holds the ID at position `i`. */
  predicate LastBefore(ids: seq<TaskId>, i: int, n: int)
    requires 0 <= i < n <= |ids|
  {
    forall k :: i < k < n ==> ids[k] != ids[i]
  }

  /** In a duplicate-free list every position holds the last occurrence of its ID. */
  lemma NoDupLast(ids: seq<TaskId>)
    requires NoDup(ids)
    ensures forall j :: 0 <= j < |ids| ==> LastBefore(ids, j, |ids|)
  {
  }

  /** `m` is the status map after the polls of the first `n` IDs. */
  predicate Reports(m: map<TaskId, Progress>, ids: seq<TaskId>, replies: seq<PollReply>, n: int)
    requires 0 <= n <= |ids| == |replies|
  {
    m.Keys == (set id | id in ids[..n]) &&
    forall j :: 0 <= j < n && LastBefore(ids, j, n) ==> m[ids[j]] == Reported(replies[j])
  }

  /** Recording the poll of the next ID extends the status map by one. */
  lemma ReportsStep(m: map<TaskId, Progress>, ids: seq<TaskId>, replies: seq<PollReply>, i: int)
    requires 0 <= i < |ids| == |replies| && Reports(m, ids, replies, i)
    ensures Reports(m[ids[i] := Reported(replies[i])], ids, replies, i + 1)
  {
    var next := m[ids[i] := Reported(replies[i])];
    assert next.Keys == m.Keys + {ids[i]};
    assert ids[..i + 1] == ids[..i] + [ids[i]];
    forall id ensures id in ids[..i + 1] <==> id in ids[..i] || id == ids[i] {
    }
    forall j | 0 <= j < i && LastBefore(ids, j, i + 1)
      ensures next[ids[j]] == Reported(replies[j])
    {
      assert ids[j] != ids[i] && LastBefore(ids, j, i);
      assert next[ids[j]] == m[ids[j]];
    }
  }

  /** `get_tasks_status`: every tracked ID is a key; its value is the last
      poll made for it (the only one when the list has no duplicates). A
      lookup that raises ends the loop with its exception; the map built so
      far covers the IDs polled before it. */
  method StatusMap(ids: seq<TaskId>, replies: seq<PollReply>) returns (m: map<TaskId, Progress>, raised: Option<Error>)
    requires |replies| == |ids|
    ensures raised == PollRaise(replies)
    ensures var n := PollsBeforeRaise(replies);
      m.Keys == (set id | id in ids[..n]) &&
      forall i :: 0 <= i < n && LastBefore(ids, i, n) ==> m[ids[i]] == Reported(replies[i])
    ensures raised.None? ==> m.Keys == set id | id in ids
    ensures raised.None? ==> forall i :: 0 <= i < |ids| && LastBefore(ids, i, |ids|) ==> m[ids[i]] == Reported(replies[i])
    ensures raised.None? && NoDup(ids) ==> forall i :: 0 <= i < |ids| ==> m[ids[i]] == Reported(replies[i])
  {
    m, raised := map[], None;
    if ids == [] {
      return;
    }
    var i := 0;
    while i < |ids|
      invariant 0 <= i <= |ids|
      invariant forall k :: 0 <= k < i ==> !replies[k].PollRaised?
      invariant Reports(m, ids, replies, i)
    {
      var taskId := ids[i];
      var progressData := replies[i];
      if progressData.PollRaised? {
        raised := Some(progressData.error);
        break;
      }
      ReportsStep(m, ids, replies, i);
      if progressData.PollResponse? && progressData.code == Some(0) {
        m := m[taskId := progressData.data];
      } else {
        m := m[taskId := QueryFailed];
      }
      i := i + 1;
    }
    assert i == PollsBeforeRaise(replies);
    if raised.None? {
      assert ids[..i] == ids;
      if NoDup(ids) {
        NoDupLast(ids);
      }
    }
  }

  /** A poll that reports success (1) or failure (2) of the download; only
      such tasks are dropped by pruning. */
  predicate Terminal(r: PollReply)
  {
    PollOk(r) && (r.data.status == Some(1) || r.data.status == Some(2))
  }

  /** `active_tasks`: the tracked IDs whose poll failed or whose status is
      neither 1 nor 2, in their original order. */
  function Retained(ids: seq<TaskId>, replies: seq<PollReply>): (kept: seq<TaskId>)
    requires |replies| == |ids|
    ensures |kept| <= |ids|
    ensures forall x :: x in kept ==> x in ids
  {
    if ids == [] then []
    else
      var n := |ids| - 1;
      assert forall x :: x in ids[..n] ==> x in ids;
      Retained(ids[..n], replies[..n]) + (if Terminal(replies[n]) then [] else [ids[n]])
  }

  /** Positions of the retained tasks, in increasing order. */
  function KeptIndices(replies: seq<PollReply>): seq<nat>
  {
    if replies == [] then []
    else
      var n := |replies| - 1;
      KeptIndices(replies[..n]) + (if Terminal(replies[n]) then [] else [n])
  }

  /** The kept positions are valid and strictly increasing, and a
      position is kept exactly when its poll is not terminal. */
  lemma {:induction false} KeptIndicesExact(replies: seq<PollReply>)
    ensures var kept := KeptIndices(replies);
      (forall k :: 0 <= k < |kept| ==> kept[k] < |replies|) &&
      (forall k, l :: 0 <= k < l < |kept| ==> kept[k] < kept[l]) &&
      (forall i :: 0 <= i < |replies| ==> (i in kept <==> !Terminal(replies[i])))
  {
    if replies != [] {
      var n := |replies| - 1;
      KeptIndicesExact(replies[..n]);
      assert forall i :: 0 <= i < n ==> replies[..n][i] == replies[i];
    }
  }

  /** `Retained` picks `ids` at the kept positions, in order. */
  lemma {:induction false} RetainedAtKept(ids: seq<TaskId>, replies: seq<PollReply>)
    requires |replies| == |ids|
    ensures var kept := KeptIndices(replies);
      |Retained(ids, replies)| == |kept| &&
      forall k :: 0 <= k < |kept| ==> kept[k] < |ids| && Retained(ids, replies)[k] == ids[kept[k]]
  {
    KeptIndicesExact(replies);
    if ids != [] {
      var n := |ids| - 1;
      RetainedAtKept(ids[..n], replies[..n]);
    }
  }

  /** Pruning keeps exactly the positions whose poll is not terminal, in
      increasing order: `Retained` is the order-preserving subsequence of
      `ids` at those positions. */
  lemma RetainedIsSubsequence(ids: seq<TaskId>, replies: seq<PollReply>)
    requires |replies| == |ids|
    ensures var kept := KeptIndices(replies);
      |Retained(ids, replies)| == |kept| &&
      (forall k :: 0 <= k < |kept| ==> kept[k] < |ids| && Retained(ids, replies)[k] == ids[kept[k]]) &&
      (forall k, l :: 0 <= k < l < |kept| ==> kept[k] < kept[l]) &&
      (forall i :: 0 <= i < |ids| ==> (i in kept <==> !Terminal(replies[i])))
  {
    KeptIndicesExact(replies);
    RetainedAtKept(ids, replies);
  }

  /** With no duplicates, a tracked ID survives pruning exactly when its
      poll failed or reported a non-terminal status. */
  lemma RetainedMembers(ids: seq<TaskId>, replies: seq<PollReply>)
    requires |replies| == |ids| && NoDup(ids)
    ensures forall i :: 0 <= i < |ids| ==> (ids[i] in Retained(ids, replies) <==> !Terminal(replies[i]))
    ensures NoDup(Retained(ids, replies))
  {
    RetainedIsSubsequence(ids, replies);
    var kept := KeptIndices(replies);
    var r := Retained(ids, replies);
    forall i | 0 <= i < |ids| && ids[i] in r
      ensures !Terminal(replies[i])
    {
      var k :| 0 <= k < |r| && r[k] == ids[i];
      assert ids[kept[k]] == ids[i];
      assert kept[k] == i;
      assert kept[k] in kept;
    }
    forall i | 0 <= i < |ids| && !Terminal(replies[i])
      ensures ids[i] in r
    {
      var k :| 0 <= k < |kept| && kept[k] == i;
      assert r[k] == ids[i];
    }
    forall k, l | 0 <= k < l < |r|
      ensures r[k] != r[l]
    {
      assert kept[k] < kept[l];
    }
  }

  /** Two tracked tasks, the first reported finished and the poll of the
      second failing: only the first is removed. */
  lemma PruneFinishedKeepUnknown(a: TaskId, b: TaskId, done: Progress)
    requires done.status == Some(1)
    ensures Retained([a, b], [PollResponse(Some(0), done), PollFailed]) == [b]
  {
    var ids, replies := [a, b], [PollResponse(Some(0), done), PollFailed];
    assert ids[..1] == [a] && replies[..1] == [PollResponse(Some(0), done)];
    assert ids[..1][..0] == [] && replies[..1][..0] == [];
    assert Retained(ids[..1], replies[..1]) == [];
  }

  /** The loop of `clear_completed_tasks` over a non-empty list (an empty
      list is answered before the loop): the surviving tasks and the number
      removed. A lookup that raises ends the loop with its exception. */
  method Prune(ids: seq<TaskId>, replies: seq<PollReply>)
    returns (activeTasks: seq<TaskId>, clearedCount: int, raised: Option<Error>)
    requires |replies| == |ids|
    ensures raised == PollRaise(replies)
    ensures var n := PollsBeforeRaise(replies); activeTasks == Retained(ids[..n], replies[..n])
    ensures raised.None? ==> activeTasks == Retained(ids, replies)
    ensures clearedCount == |ids| - |activeTasks| >= 0
    ensures NoDup(ids) ==> NoDup(activeTasks)
  {
    activeTasks, raised := [], None;
    var i := 0;
    while i < |ids|
      invariant 0 <= i <= |ids|
      invariant forall k :: 0 <= k < i ==> !replies[k].PollRaised?
      invariant activeTasks == Retained(ids[..i], replies[..i])
      invariant |activeTasks| <= i
    {
      var progressData := replies[i];
      if progressData.PollRaised? {
        raised := Some(progressData.error);
        break;
      }
      if progressData.PollResponse? && progressData.code == Some(0) {
        var status := progressData.data.status;
        if status != Some(1) && status != Some(2) {
          activeTasks := activeTasks + [ids[i]];
        }
      } else {
        activeTasks := activeTasks + [ids[i]];
      }
      assert ids[..i + 1][..i] == ids[..i] && replies[..i + 1][..i] == replies[..i];
      i := i + 1;
    }
    assert i == PollsBeforeRaise(replies);
    if raised.None? {
      assert ids[..i] == ids && replies[..i] == replies;
    }
    clearedCount := |ids| - |activeTasks|;
    if NoDup(ids) {
      assert NoDup(ids[..i]);
      RetainedMembers(ids[..i], replies[..i]);
    }
  }
}

=== FILE: Tokens.dfy ===
/** The three-tier lookup of `get_access_token` as a function of the state
    it reads: the in-memory cache `_token_cache`, the configuration record
    kept in `config.json`, the clock, the ISO-8601 parser and the reply of
    the single refresh call. The class `App.State` runs the same lookup
    step by step on its fields and is proved equal to `Acquire`. */
module Tokens {
  import opened Common

  /** Seconds before the recorded expiry after which a token is no longer used. */
  const SafetyMargin: int := 300

  /** The record stored in `config.json`; `None` stands for a missing key.
      `taskIds` is `config.get('task_ids', [])`. */
  datatype Config = Config(
    clientID: Option<string>,
    clientSecret: Option<string>,
    accessToken: Option<string>,
    expiredAt: Option<string>,
    taskIds: seq<int>)

  /** What `load_config` yields for a missing or unreadable file. */
  const EmptyConfig: Config := Config(None, None, None, None, [])

  /** `_token_cache`: the hot token and its expiry as a Unix timestamp. */
  datatype Cache = Cache(accessToken: Option<string>, expiredAtTs: int)

  const EmptyCache: Cache := Cache(None, 0)

  /** A token whose expiry is `expiry` may still be used at time `now`. */
  predicate Unexpired(expiry: int, now: int)
  {
    now < expiry - SafetyMargin
  }

  predicate CacheUsable(c: Cache, now: int)
  {
    Truthy(c.accessToken) && Unexpired(c.expiredAtTs, now)
  }

  predicate HasCredentials(cfg: Config)
  {
    Truthy(cfg.clientID) && Truthy(cfg.clientSecret)
  }

  /** The stored expiry as a timestamp; `None` when the key is missing or
      empty, or when the parser rejects it. */
  function StoredExpiry(cfg: Config, parse: string -> Option<int>): (e: Option<int>)
    ensures e.Some? ==> Truthy(cfg.expiredAt) && parse(cfg.expiredAt.value) == e
  {
    if Truthy(cfg.expiredAt) then parse(cfg.expiredAt.value) else None
  }

  predicate StoredUsable(cfg: Config, parse: string -> Option<int>, now: int)
  {
    StoredExpiry(cfg, parse).Some? && Unexpired(StoredExpiry(cfg, parse).value, now)
  }

  /** The outcome of `POST /api/v1/access_token`: the transport raised, or an
      HTTP status with the body's `code`, `data.accessToken` and `data.expiredAt`. */
  datatype RefreshReply =
    | ConnectionFailed
    | RefreshResponse(statusCode: int, code: Option<int>, accessToken: string, expiredAt: string)

  predicate RefreshOk(r: RefreshReply)
  {
    r.RefreshResponse? && r.statusCode == 200 && r.code == Some(0)
  }

  /** One run of `get_access_token`: what it returned or raised, the cache
      and the configuration afterwards, and whether it called the refresh
      endpoint. */
  datatype Acquisition = Acquisition(result: Outcome<Option<string>>, cache: Cache, config: Config, refreshed: bool)

  function Acquire(cache: Cache, config: Config, now: int, parse: string -> Option<int>, reply: RefreshReply): (a: Acquisition)
    // only the two token fields of the configuration can change, and only by a refresh
    ensures a.config.(accessToken := config.accessToken, expiredAt := config.expiredAt) == config
    ensures !a.refreshed ==> a.config == config
    // a usable token is never returned without credentials unless it came from the cache
    ensures a.result.Return? && Truthy(a.result.value) ==> CacheUsable(cache, now) || HasCredentials(config)
  {
    if CacheUsable(cache, now) then
      Acquisition(Return(cache.accessToken), cache, config, false)
    else if !HasCredentials(config) then
      Acquisition(Return(None), cache, config, false)
    else if StoredUsable(config, parse, now) then
      if config.accessToken.None? then
        Acquisition(Raise(KeyError("accessToken")), cache, config, false)
      else
        Acquisition(Return(config.accessToken), Cache(config.accessToken, StoredExpiry(config, parse).value), config, false)
    else if reply.ConnectionFailed? then
      Acquisition(Raise(ConnectionError), cache, config, true)
    else if RefreshOk(reply) then
      var newCache := match parse(reply.expiredAt)
        case Some(ts) => Cache(Some(reply.accessToken), ts)
        case None => cache.(expiredAtTs := 0);
      Acquisition(Return(Some(reply.accessToken)), newCache,
                  config.(accessToken := Some(reply.accessToken), expiredAt := Some(reply.expiredAt)), true)
    else
      Acquisition(Return(None), EmptyCache, config, true)
  }

  /** Tier one: a usable cached token is returned as it is; neither the file
      nor the network is touched. */
  lemma CacheHit(cache: Cache, config: Config, now: int, parse: string -> Option<int>, reply: RefreshReply)
    requires CacheUsable(cache, now)
    ensures Acquire(cache, config, now, parse, reply) == Acquisition(Return(cache.accessToken), cache, config, false)
  {
  }

  /** Without both credentials the lookup gives up before any refresh. */
  lemma MissingCredentials(cache: Cache, config: Config, now: int, parse: string -> Option<int>, reply: RefreshReply)
    requires !CacheUsable(cache, now) && !HasCredentials(config)
    ensures Acquire(cache, config, now, parse, reply) == Acquisition(Return(None), cache, config, false)
  {
  }

  /** Tier two: a stored token whose expiry parses and is far enough away is
      copied into the cache with that expiry and returned; no refresh. */
  lemma StoredHit(cache: Cache, config: Config, now: int, parse: string -> Option<int>, reply: RefreshReply)
    requires !CacheUsable(cache, now) && HasCredentials(config)
    requires Truthy(config.expiredAt) && parse(config.expiredAt.value).Some?
    requires Unexpired(parse(config.expiredAt.value).value, now)
    requires config.accessToken.Some?
    ensures Acquire(cache, config, now, parse, reply) ==
      Acquisition(Return(config.accessToken), Cache(config.accessToken, parse(config.expiredAt.value).value), config, false)
  {
  }

  /** Tier three: the refresh endpoint is called exactly when neither the
      cache nor the stored token can be used and both credentials are present. */
  lemma RefreshWhenNeeded(cache: Cache, config: Config, now: int, parse: string -> Option<int>, reply: RefreshReply)
    ensures Acquire(cache, config, now, parse, reply).refreshed <==>
      !CacheUsable(cache, now) && HasCredentials(config) && !StoredUsable(config, parse, now)
  {
  }

  /** A successful refresh writes the new token and expiry string into the
      configuration (nothing else in it changes), puts the token and its
      parsed expiry into the cache, and returns the token. If the new expiry
      does not parse, the cached token stays what it was and the cached
      expiry becomes 0. */
  lemma RefreshSuccess(cache: Cache, config: Config, now: int, parse: string -> Option<int>, reply: RefreshReply)
    requires !CacheUsable(cache, now) && HasCredentials(config) && !StoredUsable(config, parse, now)
    requires RefreshOk(reply)
    ensures var a := Acquire(cache, config, now, parse, reply);
      a.refreshed && a.result == Return(Some(reply.accessToken)) &&
      a.config == config.(accessToken := Some(reply.accessToken), expiredAt := Some(reply.expiredAt)) &&
      (parse(reply.expiredAt).Some? ==> a.cache == Cache(Some(reply.accessToken), parse(reply.expiredAt).value)) &&
      (parse(reply.expiredAt).None? ==> a.cache == Cache(cache.accessToken, 0))
  {
  }

  /** A refresh answered with another HTTP status or a non-zero `code`
      empties the cache, leaves the configuration (including its old token
      fields) untouched and returns no token. */
  lemma RefreshFailure(cache: Cache, config: Config, now: int, parse: string -> Option<int>, reply: RefreshReply)
    requires !CacheUsable(cache, now) && HasCredentials(config) && !StoredUsable(config, parse, now)
    requires reply.RefreshResponse? && !RefreshOk(reply)
    ensures Acquire(cache, config, now, parse, reply) == Acquisition(Return(None), EmptyCache, config, true)
  {
  }

  /** A refresh whose transport fails raises out of the lookup and leaves
      cache and configuration as they were. */
  lemma RefreshConnectionError(cache: Cache, config: Config, now: int, parse: string -> Option<int>)
    requires !CacheUsable(cache, now) && HasCredentials(config) && !StoredUsable(config, parse, now)
    ensures Acquire(cache, config, now, parse, ConnectionFailed) == Acquisition(Raise(ConnectionError), cache, config, true)
  {
  }

  /** After a successful refresh whose expiry parses, cache and
      configuration agree: same token, and the stored expiry parses to the
      cached timestamp. */
  lemma RefreshLeavesLayersConsistent(cache: Cache, config: Config, now: int, parse: string -> Option<int>, reply: RefreshReply)
    requires !CacheUsable(cache, now) && HasCredentials(config) && !StoredUsable(config, parse, now)
    requires RefreshOk(reply) && reply.expiredAt != "" && parse(reply.expiredAt).Some?
    ensures var a := Acquire(cache, config, now, parse, reply);
      a.cache.accessToken == a.config.accessToken && StoredExpiry(a.config, parse) == Some(a.cache.expiredAtTs)
  {
  }

  /** A token obtained by a refresh is served from the cache by every later
      lookup made before its expiry minus the safety margin, whatever the
      refresh endpoint would have answered. */
  lemma ReuseAfterRefresh(cache: Cache, config: Config, now: int, later: int, parse: string -> Option<int>,
                          reply: RefreshReply, reply2: RefreshReply)
    requires !CacheUsable(cache, now) && HasCredentials(config) && !StoredUsable(config, parse, now)
    requires RefreshOk(reply) && reply.accessToken != "" && parse(reply.expiredAt).Some?
    requires Unexpired(parse(reply.expiredAt).value, later)
    ensures var a := Acquire(cache, config, now, parse, reply);
      var b := Acquire(a.cache, a.config, later, parse, reply2);
      b.result == a.result && !b.refreshed && b.cache == a.cache && b.config == a.config
  {
  }

  /** Clearing on failure is idempotent: a second failed refresh leaves the
      same state as the first. */
  lemma FailedRefreshIdempotent(cache: Cache, config: Config, now: int, parse: string -> Option<int>, reply: RefreshReply)
    requires !CacheUsable(cache, now) && HasCredentials(config) && !StoredUsable(config, parse, now)
    requires reply.RefreshResponse? && !RefreshOk(reply)
    ensures var a := Acquire(cache, config, now, parse, reply);
      Acquire(a.cache, a.config, now, parse, reply) == a
  {
  }
}
